=== FILE: README.md ===
# knap graph builder in Dafny

knap draws how Knative eventing resources in a namespace connect. Brokers,
sources and triggers become one node/edge/cluster graph. This project models
the part of knap that builds that graph, and proves properties about it:

- **Identity keys** (module `Keys`). Brokers, triggers, sources, URI endpoints
  and object references are identified by keys that slash-join their parts
  and lower-case the result.
- **Address normalisation** (module `Addresses`). Sink URIs and broker
  ingress addresses get a trailing slash, then are compared as plain strings.
- **The graph builder of `pkg/graph`** (module `GraphModel`). There is one
  immutable state record: the node table `nodes`, the cluster table
  `subgraphs` and the address table `dnsToKey`. It also holds what has been
  added to the rendered graph (`clusters`, `drawn`, `edges`) and a fresh-id
  counter. `AddBroker`, `AddSource` and `AddTrigger` are pure
  state-to-state functions. Module `GraphProperties` proves the structural
  invariant `Valid`: ids are fresh and distinct, recorded nodes are drawn,
  and edges join drawn nodes. It also proves ordering effects (brokers first
  or triggers first) and the two worked scenarios: a broker with one
  trigger, and a trigger whose broker is missing.
- **`crdsToGVR`** (module `Crds`). Source CRDs are flattened into
  group/version/resource triples, one per served version. The flattening is
  written as a function and also as the nested loop of `crdsToGVR`, which is
  proved equal to it.
- **The earlier trigger loop of `cmd/dot`** (module `DotTriggers`). It is
  written as a fold over the listed triggers (`Run`) and also as the loop
  itself (`Build`).

Nodes and clusters of the rendering library are abstract records. Each one
has a fresh integer id, the name it was created with, the `label` attribute
when one is set, and the place it was added: top level or a cluster id.

Each key helper in cmd/dot/graph.go:117-139 matches its namesake in
pkg/graph/graph.go:173-199, which adds `gvkKey`. Module `Keys` defines each
helper once.

Where the code does something one might not expect, the model follows the code:

- A broker ingested after a trigger that named it replaces the
  `UnknownBroker` entry in `nodes`. It does not update that entry in place.
  The placeholder stays drawn, and the trigger stays outside the broker's
  cluster. Lemma `GraphProperties.BrokerAfterTrigger` states this.
- Cluster names count the distinct broker keys seen so far, not the brokers
  ingested. Ingesting a broker a second time therefore lets two clusters share
  one `cluster_<n>` name. Lemma
  `GraphProperties.ReingestedBrokerRepeatsClusterName` states this.
- In `pkg/graph`, the trigger-to-subscriber edge has no label. The filter
  text goes on the trigger node's label instead.
- In `cmd/dot`, the subscriber edge ends at a freshly drawn node, not at the
  deduplicated node kept in `nodes`.

## Model

| member | source | states |
|---|---|---|
| Keys.Key | pkg/graph/graph.go:181-183 | The key has no upper-case letter. It is the slash-join of the lower-cased group, version, kind and name. |
| Keys.GvkKey | pkg/graph/graph.go:177-179 | The source's own key agrees with `key` on the group, version and kind of its type. |
| Keys.UriKey | pkg/graph/graph.go:185-187 | A URI key starts with `uri/`, followed by the lower-cased URI, and has no upper-case letter. |
| Keys.RefKey | pkg/graph/graph.go:189-191 | A reference key is the slash-join of the lower-cased API version, kind and name. |
| Keys.EventingKey | pkg/graph/graph.go:193-195 | An eventing key is `eventing.knative.dev/v1alpha1/`, then the lower-cased kind and name. |
| Keys.BrokerKey | pkg/graph/graph.go:173-175 | A broker key is the broker prefix followed by the lower-cased name. It has no upper-case letter. |
| Keys.TriggerKey | pkg/graph/graph.go:197-199 | A trigger key is the trigger prefix followed by the lower-cased name. It has no upper-case letter. |
| Keys.KeyIgnoresCase | pkg/graph/graph.go:181-183 | Inputs that differ only in letter case give the same key. |
| Keys.KeyOfUpperCase | pkg/graph/graph.go:181-183 | Upper-casing every part leaves the key unchanged. |
| Keys.BrokerKeyEqualIff | pkg/graph/graph.go:173-175 | Two broker names share a key exactly when they differ only in letter case. |
| Keys.TriggerKeyEqualIff | pkg/graph/graph.go:197-199 | Two trigger names share a key exactly when they differ only in letter case. |
| Keys.UriKeyEqualIff | pkg/graph/graph.go:185-187 | Two URIs share a key exactly when they differ only in letter case. |
| Keys.BrokerTriggerDisjoint | cmd/dot/graph.go:129-139 | For every pair of names, a broker key is never a trigger key. |
| Keys.UriKeyDisjoint | pkg/graph/graph.go:185-199 | A URI key is never a broker key or a trigger key. |
| Keys.RefKeyOfBroker | pkg/graph/graph.go:173-195 | A subscriber reference to a v1alpha1 eventing `Broker` has the same key as that broker. |
| Text.ToLowerEqualIff | pkg/graph/graph.go:178-190 | Lower-casing makes two strings equal exactly when they differ only in ASCII letter case. |
| Text.DecimalInjective | pkg/graph/graph.go:48 | `%d` renderings of two counts are equal exactly when the counts are equal. `GraphProperties.NewBrokerNewClusterName` uses this. |
| Addresses.EnsureSlash | pkg/graph/graph.go:157-159 | The result ends in `/` and extends its input by at most that one character. An input that already ends in `/` is returned unchanged. |
| Addresses.EnsureSlashIdempotent | pkg/graph/graph.go:154-171 | Normalising an address a second time changes nothing. |
| Addresses.SinkDns | pkg/graph/graph.go:154-163 | The result is empty exactly when the source has no sink URI. A URI that already ends in `/` is returned unchanged. Any other URI gets one `/` appended. |
| Addresses.BrokerDns | pkg/graph/graph.go:165-171 | The result is `http://` followed by the host name. It is unchanged if that already ends in `/`, and gets one `/` appended otherwise. |
| Addresses.SinkOfBrokerAddress | pkg/graph/graph.go:154-171 | A sink URI equal to the broker's ingress URL, with or without the trailing slash, normalises to the broker's address. |
| Resources.FilterText | pkg/graph/graph.go:113-117 | Filter text exists exactly when both `Filter` and `Filter.SourceAndType` are set. It is then `Source:<source>\nType:<type>`. |
| Resources.SubscriberKey | pkg/graph/graph.go:122-139 | The subscriber key is the URI key if a DNS name is set, else the reference key if a reference is set, else the empty string. |
| GraphModel.New | pkg/graph/graph.go:19-33 | A new graph has empty tables and nothing drawn, and satisfies the invariant. |
| GraphModel.Upsert | pkg/graph/graph.go:92-97 | An existing entry is returned and the state is unchanged. Otherwise one fresh top-level node is drawn and recorded under the key. |
| GraphModel.AddBroker | pkg/graph/graph.go:35-53 | Node, cluster and address entries under the broker key are written unconditionally, and all other entries are kept. The ingress node lies in the new cluster `cluster_<previous size>`. No edge is added. |
| GraphModel.AddSource | pkg/graph/graph.go:55-86 | The source node has no label attribute. It is recorded, and `subgraphs` and `dnsToKey` are unchanged. Without a sink, no edge is added. With a sink, exactly one unlabelled edge is appended. It goes to the bound node if the address resolves, otherwise to a fresh top-level `UnknownSink` node. |
| GraphModel.TriggerLabel | pkg/graph/graph.go:113-119 | The trigger's label is set exactly when there are filter criteria. It is then `Trigger <name>\nSource:<source>\nType:<type>`. |
| GraphModel.PlaceTrigger | pkg/graph/graph.go:99-107 | The trigger node is inside the broker's cluster exactly when that cluster exists, and at top level otherwise. It is recorded under the trigger key. |
| GraphModel.AddTrigger | pkg/graph/graph.go:89-152 | An existing broker entry is kept. A missing one gets a top-level `UnknownBroker` node. The trigger node is placed and recorded, and the other entries are kept. A subscriber adds exactly one unlabelled trigger-to-subscriber edge. A new subscriber key gets a fresh `Subscriber` node. No key other than the broker, trigger and subscriber keys is added. The nodes drawn are exactly the placeholder broker (when one was missing), the trigger, and the new subscriber (when its key was new), in that order. |
| GraphModel.BrokerThenTrigger | pkg/graph/graph.go:89-107 | The broker entry is kept or filled with a placeholder, and the trigger node is placed. Exactly the broker and trigger keys are added. The nodes drawn are the placeholder (when the broker was missing) and then the trigger. |
| GraphModel.LinkSubscriber | pkg/graph/graph.go:140-150 | The subscriber entry is reused when its key is present. Otherwise one fresh top-level `Subscriber` node is drawn and recorded. Either way, one unlabelled edge from the trigger to that entry is appended. |
| GraphModel.SubscriberName | pkg/graph/graph.go:121-139 | A DNS name is used as written, and the key is that name's URI key. Otherwise a reference gives `<name>\nKind: <kind>\n<apiVersion>`. With neither, the name is `?` and the key is empty. |
| GraphProperties.NewValid | pkg/graph/graph.go:19-33 | The empty graph satisfies the structural invariant. |
| GraphProperties.UpsertValid | pkg/graph/graph.go:92-97 | Lookup-or-insert keeps the invariant, and the returned node is drawn. |
| GraphProperties.AddBrokerValid | pkg/graph/graph.go:35-53 | `AddBroker` keeps the invariant. |
| GraphProperties.AddSourceValid | pkg/graph/graph.go:55-86 | `AddSource` keeps the invariant, so its edge joins drawn nodes. |
| GraphProperties.AddTriggerValid | pkg/graph/graph.go:89-152 | `AddTrigger` keeps the invariant, so its edge joins drawn nodes. |
| GraphProperties.IngestorsKeepValid | pkg/graph/graph.go:35-152 | All three ingestors keep the invariant. |
| GraphProperties.UpsertIdempotent | pkg/graph/graph.go:142-146 | A second lookup-or-insert under the same key returns the same node and changes nothing. |
| GraphProperties.UnknownSinkNotRecorded | pkg/graph/graph.go:68-71 | An unresolved sink's `UnknownSink` node is not a value of the node table. |
| GraphProperties.SourceReachesBroker | pkg/graph/graph.go:62-85 | A source ingested straight after a broker, whose sink is that broker's ingress URL and whose own key differs from the broker's key, gets one edge to the broker's ingress node. |
| GraphProperties.TriggerAfterBroker | pkg/graph/graph.go:35-107 | A trigger ingested after its broker, with any sources in between, lands in that broker's cluster. |
| GraphProperties.AddSourcesKeepClusters | pkg/graph/graph.go:55-86 | Ingesting any sequence of sources leaves the cluster and address tables unchanged. |
| GraphProperties.BrokerAfterTrigger | pkg/graph/graph.go:35-107 | A broker ingested after its trigger replaces the `UnknownBroker` entry with a different node. The placeholder stays drawn at top level, and the trigger keeps its earlier placement. |
| GraphProperties.ScenarioBrokerThenTrigger | pkg/graph/graph.go:35-152 | Broker `default` then trigger `t1` give one cluster holding the ingress and trigger nodes, a top-level subscriber, and one unlabelled edge. |
| GraphProperties.ScenarioMissingBroker | pkg/graph/graph.go:89-107 | A trigger on a never-ingested broker gives exactly one top-level `UnknownBroker missing` node, and the trigger is at top level. |
| GraphProperties.ReingestedBrokerRepeatsClusterName | pkg/graph/graph.go:48-50 | A broker whose key is already recorded does not grow the count of cluster keys. The broker ingested after it therefore draws a cluster with the same `cluster_<n>` name. |
| GraphProperties.NewBrokerNewClusterName | pkg/graph/graph.go:48-50 | A broker with a new key grows the count, so the broker ingested after it draws a differently named cluster. |
| GraphProperties.ScenarioRepeatedClusterName | pkg/graph/graph.go:48-50 | Brokers `a`, `a` and `b` ingested into a new graph draw clusters named `cluster_0`, `cluster_1` and `cluster_1`. |
| Crds.ServedGvrs | pkg/eventing/eventing.go:59-70 | One triple per served version, each carrying the CRD's group and plural. |
| Crds.CrdsToGvr | pkg/eventing/eventing.go:56-73 | The output length is the total number of served versions. |
| Crds.ServedGvrsMembership | pkg/eventing/eventing.go:59-68 | A triple appears exactly when some served version yields it. |
| Crds.CrdsToGvrMembership | pkg/eventing/eventing.go:56-73 | A triple appears exactly when it is the group, served version name and plural of some input CRD. |
| Crds.ServedGvrsAppend | pkg/eventing/eventing.go:59-70 | Version order is kept. |
| Crds.CrdsToGvrAppend | pkg/eventing/eventing.go:58-71 | CRD order is kept. |
| Crds.CrdsToGvrSingle | pkg/eventing/eventing.go:58-70 | One CRD contributes exactly its served versions' triples. |
| Crds.ServedGvrsSingle | pkg/eventing/eventing.go:59-69 | A served version gives its triple, and an unserved one gives nothing. |
| Crds.NothingServed | pkg/eventing/eventing.go:56-73 | An empty input, or one with no served version, gives an empty output. |
| Crds.CrdsToGvrLoop | pkg/eventing/eventing.go:56-73 | The nested loop computes exactly the flattening, with length equal to the number of served versions. |
| DotTriggers.LookupOrDraw | cmd/dot/graph.go:46-52 | An existing entry is reused and nothing changes. Otherwise one fresh top-level node is drawn and recorded. |
| DotTriggers.EdgeLabel | cmd/dot/graph.go:62-68 | The label is `Source:<s>\nType:<t>` when `Filter` and `SourceAndType` are both set, and empty otherwise. |
| DotTriggers.BrokerAndTrigger | cmd/dot/graph.go:44-60 | The broker is reused, or drawn when missing. Then an unlabelled top-level trigger node is drawn and recorded. Exactly these nodes are drawn, in that order. Exactly one unlabelled broker-to-trigger edge is appended. |
| DotTriggers.ConnectSubscriber | cmd/dot/graph.go:70-101 | The subscriber key gets an entry only if it was missing. The one new edge carries the filter text as its label and goes to a fresh unlabelled top-level node that no table entry names. A new entry is also unlabelled. The nodes drawn are exactly the new entry (when the key was missing) and then that fresh node. |
| DotTriggers.Step | cmd/dot/graph.go:42-103 | Each trigger appends a broker-to-trigger edge, then a labelled subscriber edge when it has a subscriber. An existing broker entry is reused and no broker node is drawn for it. Exactly the broker, trigger and subscriber keys are added. Every entry under any other key keeps its value. The nodes drawn are exactly: the broker node if it was missing, the trigger node, and, with a subscriber, its new entry if the key was new and then the fresh edge target. The trigger node and both subscriber nodes are unlabelled top-level nodes. |
| DotTriggers.SubscriberName | cmd/dot/graph.go:70-84 | A DNS name is used as written, and the key is that name's URI key. Otherwise a reference gives `<kind>/<name>`. With neither, the name is `?` and the key is empty. |
| DotTriggers.Run | cmd/dot/graph.go:42-103 | After any number of triggers, every recorded node's id is below the counter. |
| DotTriggers.Build | cmd/dot/graph.go:42-103 | The loop over the listed triggers computes exactly the fold `Run`. |
| DotTriggers.EdgeCount | cmd/dot/graph.go:42-103 | After n triggers there are n edges plus one for each trigger with a subscriber. |
| DotTriggers.StepKeepsBrokersUnique | cmd/dot/graph.go:46-56 | One iteration keeps every drawn broker node recorded and never draws a second one for the same broker key. |
| DotTriggers.BrokerNodesUnique | cmd/dot/graph.go:42-56 | Across the whole pass, at most one broker node is drawn per broker key. |
| DotTriggers.EveryBrokerRecorded | cmd/dot/graph.go:44-52 | After the pass, every trigger's broker key has an entry in the node table. |
| DotTriggers.BrokerNodeStable | cmd/dot/graph.go:44-58 | Once a broker key has an entry, every later iteration leaves that entry unchanged. |
| DotTriggers.SameBrokerSameNode | cmd/dot/graph.go:44-60 | A later trigger naming the same broker, in any letter case, has its broker edge start at the node recorded for the earlier trigger. This holds whatever brokers come in between. |

## Left out

- The `Client` listing methods of pkg/eventing/eventing.go (`SourceCRDs`, `Sources`, `Triggers`, `Brokers`, `Channels`, `Subscriptions`) are left out. They do dynamic-client I/O, unstructured conversion and `log.Fatalf` exits. The model receives their results as input sequences.
- The version and API-version rewrite in `Sources` is left out, because it depends on listing results.
- cmd/graph/main.go (HTTP server, running the `dot` binary, temporary files, base64, HTML template) and cmd/dot/main.go (listing and logging) are I/O only.
- Client configuration and flag parsing are left out.
- The `github.com/tmc/dot` library is not part of this model. Its nodes, subgraphs and edges are abstract records with fresh ids.
- Library attributes other than `label` (`shape`, `rankdir`) and the `String()` serialisation are left out.
- Any merging the renderer does for nodes that share a name is left out.
- The `lhead` edge attribute (pkg/graph/graph.go:81-84) is left out. It is a rendering hint that the code marks as not working.
- In cmd/dot/graph.go:97-99, setting the edge label is treated as always succeeding. The `log.Fatalf` path belongs to the rendering library.
- `source.GroupVersionKind()` parses the API version; that parsing belongs to the Kubernetes machinery. The `Source` record carries the parsed triple in its `gvk` field.
- `strings.ToLower` is modelled on ASCII letters only. Unicode case folding is not modelled.
- `fmt.Sprintf` is modelled as string concatenation, and `%d` as `Text.Decimal`.

=== FILE: addresses.dfy ===
/**
  Network-address normalisation (pkg/graph/graph.go lines 154-171): sink
  URIs of sources and ingress addresses of brokers are compared as strings
  after a trailing slash has been added where one was missing.
*/
module Addresses {
  import opened Optional
  import opened Text

  /** Appends `/` unless the string already ends in one. */
  function EnsureSlash(s: string): (r: string)
    ensures HasSuffix(r, "/")
    ensures HasPrefix(r, s)
    ensures |s| <= |r| <= |s| + 1
    ensures HasSuffix(s, "/") ==> r == s
  {
    if HasSuffix(s, "/") then s else s + "/"
  }

  /** Normalising an already normalised address changes nothing. */
  lemma EnsureSlashIdempotent(s: string)
    ensures EnsureSlash(EnsureSlash(s)) == EnsureSlash(s)
  {
  }

  /**
    `sinkDNS`: the empty string when the source reports no sink URI,
    otherwise the URI, with a trailing slash added only when it has none. A present but empty URI
    becomes `/`, so the empty result means "no sink" and nothing else.
  */
  function SinkDns(sinkUri: Option<string>): (r: string)
    ensures r == "" <==> sinkUri.None?
    ensures sinkUri.Some? ==> HasSuffix(r, "/") && HasPrefix(r, sinkUri.value)
    ensures sinkUri.Some? ==> |r| <= |sinkUri.value| + 1
    ensures sinkUri.Some? && HasSuffix(sinkUri.value, "/") ==> r == sinkUri.value
    ensures sinkUri.Some? && !HasSuffix(sinkUri.value, "/") ==> r == sinkUri.value + "/"
  {
    match sinkUri
    case None => ""
    case Some(uri) => EnsureSlash(uri)
  }

  /** `brokerDNS`: `http://` followed by the ingress host name, with a trailing slash added only when it has none. */
  function BrokerDns(hostname: string): (r: string)
    ensures HasPrefix(r, "http://")
    ensures HasPrefix(r, "http://" + hostname)
    ensures HasSuffix(r, "/")
    ensures |r| <= |hostname| + 8
    ensures HasSuffix("http://" + hostname, "/") ==> r == "http://" + hostname
    ensures !HasSuffix("http://" + hostname, "/") ==> r == "http://" + hostname + "/"
  {
    EnsureSlash("http://" + hostname)
  }

  /**
    A source whose sink is the broker's ingress URL, written with or without
    the trailing slash, normalises to exactly the broker's address.
  */
  lemma SinkOfBrokerAddress(hostname: string)
    ensures SinkDns(Some("http://" + hostname)) == BrokerDns(hostname)
    ensures SinkDns(Some(BrokerDns(hostname))) == BrokerDns(hostname)
  {
    EnsureSlashIdempotent("http://" + hostname);
  }
}

=== FILE: crds.dfy ===
/**
  `crdsToGVR` of pkg/eventing/eventing.go (lines 56-73): the source custom
  resource definitions are flattened into the group/version/resource triples
  that are then listed, one per served version, in definition order and then
  version order.
*/
module Crds {

  /** One entry of `Spec.Versions`. */
  datatype CrdVersion = CrdVersion(name: string, served: bool)

  /** The parts of a custom resource definition that are read: `Spec.Group`, `Spec.Names.Plural`, `Spec.Versions`. */
  datatype Crd = Crd(group: string, plural: string, versions: seq<CrdVersion>)

  /** `schema.GroupVersionResource`. */
  datatype Gvr = Gvr(group: string, version: string, resource: string)

  /** The triple a definition contributes for one of its versions. */
  function GvrOf(crd: Crd, v: CrdVersion): Gvr {
    Gvr(crd.group, v.name, crd.plural)
  }

  /** How many of the versions are served. */
  function CountServed(vs: seq<CrdVersion>): nat {
    if |vs| == 0 then 0 else CountServed(vs[..|vs| - 1]) + (if vs[|vs| - 1].served then 1 else 0)
  }

  /** How many served versions the definitions have between them. */
  function TotalServed(crds: seq<Crd>): nat {
    if |crds| == 0 then 0 else TotalServed(crds[..|crds| - 1]) + CountServed(crds[|crds| - 1].versions)
  }

  /** The inner loop: the triples for the served versions among `vs` of `crd`, in order. */
  function ServedGvrs(crd: Crd, vs: seq<CrdVersion>): (r: seq<Gvr>)
    ensures |r| == CountServed(vs)
    ensures forall k :: 0 <= k < |r| ==> r[k].group == crd.group && r[k].resource == crd.plural
  {
    if |vs| == 0 then []
    else ServedGvrs(crd, vs[..|vs| - 1]) + (if vs[|vs| - 1].served then [GvrOf(crd, vs[|vs| - 1])] else [])
  }

  /** The whole flattening. */
  function CrdsToGvr(crds: seq<Crd>): (r: seq<Gvr>)
    ensures |r| == TotalServed(crds)
  {
    if |crds| == 0 then []
    else CrdsToGvr(crds[..|crds| - 1]) + ServedGvrs(crds[|crds| - 1], crds[|crds| - 1].versions)
  }

  /** A triple is produced for `vs` exactly when some served version among `vs` yields it. */
  lemma {:induction false} ServedGvrsMembership(crd: Crd, vs: seq<CrdVersion>, g: Gvr)
    ensures g in ServedGvrs(crd, vs) <==> exists j :: 0 <= j < |vs| && vs[j].served && g == GvrOf(crd, vs[j])
  {
    if |vs| > 0 {
      var init := vs[..|vs| - 1];
      ServedGvrsMembership(crd, init, g);
      if g in ServedGvrs(crd, init) {
        var j :| 0 <= j < |init| && init[j].served && g == GvrOf(crd, init[j]);
        assert vs[j] == init[j];
      }
      if exists j :: 0 <= j < |vs| && vs[j].served && g == GvrOf(crd, vs[j]) {
        var j :| 0 <= j < |vs| && vs[j].served && g == GvrOf(crd, vs[j]);
        if j < |vs| - 1 {
          assert init[j] == vs[j];
        }
      }
    }
  }

  /**
    Every output triple is the group, a served version's name and the plural
    of some input definition, and every served version contributes its triple.
  */
  lemma {:induction false} CrdsToGvrMembership(crds: seq<Crd>, g: Gvr)
    ensures g in CrdsToGvr(crds) <==>
      exists i, j :: 0 <= i < |crds| && 0 <= j < |crds[i].versions| && crds[i].versions[j].served && g == GvrOf(crds[i], crds[i].versions[j])
  {
    if |crds| > 0 {
      var init := crds[..|crds| - 1];
      var last := crds[|crds| - 1];
      CrdsToGvrMembership(init, g);
      ServedGvrsMembership(last, last.versions, g);
      if g in CrdsToGvr(init) {
        var i, j :| 0 <= i < |init| && 0 <= j < |init[i].versions| && init[i].versions[j].served && g == GvrOf(init[i], init[i].versions[j]);
        assert crds[i] == init[i];
      }
      if exists i, j :: 0 <= i < |crds| && 0 <= j < |crds[i].versions| && crds[i].versions[j].served && g == GvrOf(crds[i], crds[i].versions[j]) {
        var i, j :| 0 <= i < |crds| && 0 <= j < |crds[i].versions| && crds[i].versions[j].served && g == GvrOf(crds[i], crds[i].versions[j]);
        if i < |crds| - 1 {
          assert init[i] == crds[i];
        }
      }
    }
  }

  /** Version order is kept: the triples of `a + b` are those of `a` followed by those of `b`. */
  lemma {:induction false} ServedGvrsAppend(crd: Crd, a: seq<CrdVersion>, b: seq<CrdVersion>)
    ensures ServedGvrs(crd, a + b) == ServedGvrs(crd, a) + ServedGvrs(crd, b)
    decreases |b|
  {
    if |b| > 0 {
      assert (a + b)[..|a + b| - 1] == a + b[..|b| - 1];
      ServedGvrsAppend(crd, a, b[..|b| - 1]);
    } else {
      assert a + b == a;
    }
  }

  /** Definition order is kept: the triples of `a + b` are those of `a` followed by those of `b`. */
  lemma {:induction false} CrdsToGvrAppend(a: seq<Crd>, b: seq<Crd>)
    ensures CrdsToGvr(a + b) == CrdsToGvr(a) + CrdsToGvr(b)
    decreases |b|
  {
    if |b| > 0 {
      assert (a + b)[..|a + b| - 1] == a + b[..|b| - 1];
      CrdsToGvrAppend(a, b[..|b| - 1]);
    } else {
      assert a + b == a;
    }
  }

  /** One definition contributes its served versions' triples, one per served version, in version order. */
  lemma {:induction false} CrdsToGvrSingle(crd: Crd)
    ensures CrdsToGvr([crd]) == ServedGvrs(crd, crd.versions)
  {
    assert [crd][..0] == [];
  }

  lemma {:induction false} ServedGvrsSingle(crd: Crd, v: CrdVersion)
    ensures ServedGvrs(crd, [v]) == if v.served then [GvrOf(crd, v)] else []
  {
    assert [v][..0] == [];
  }

  /** Without a served version anywhere the result is empty, and an empty input gives an empty result. */
  lemma {:induction false} NothingServed(crds: seq<Crd>)
    requires forall i, j :: 0 <= i < |crds| && 0 <= j < |crds[i].versions| ==> !crds[i].versions[j].served
    ensures CrdsToGvr(crds) == []
  {
    if CrdsToGvr(crds) != [] {
      var g := CrdsToGvr(crds)[0];
      CrdsToGvrMembership(crds, g);
    }
  }

  /** `crdsToGVR` as written: an outer loop over definitions and an inner loop over their versions. */
  method CrdsToGvrLoop(crds: seq<Crd>) returns (gvrs: seq<Gvr>)
    ensures gvrs == CrdsToGvr(crds)
    ensures |gvrs| == TotalServed(crds)
  {
    gvrs := [];
    var i := 0;
    while i < |crds|
      invariant 0 <= i <= |crds|
      invariant gvrs == CrdsToGvr(crds[..i])
    {
      var crd := crds[i];
      var j := 0;
      while j < |crd.versions|
        invariant 0 <= j <= |crd.versions|
        invariant gvrs == CrdsToGvr(crds[..i]) + ServedGvrs(crd, crd.versions[..j])
      {
        var v := crd.versions[j];
        assert crd.versions[..j + 1][..j] == crd.versions[..j];
        if v.served {
          gvrs := gvrs + [Gvr(crd.group, v.name, crd.plural)];
        }
        j := j + 1;
      }
      assert crd.versions[..j] == crd.versions;
      assert crds[..i + 1][..i] == crds[..i];
      i := i + 1;
    }
    assert crds[..i] == crds;
  }
}

=== FILE: dot_triggers.dfy ===
/**
  The earlier trigger-graph builder of cmd/dot/graph.go (lines 42-103): one
  pass over the listed triggers that keeps a single node table, draws every
  node at top level, joins each broker to its trigger, and joins each
  trigger that names a subscriber to a freshly drawn subscriber node, with
  the filter text as the edge label. The key helpers at lines 117-139 are
  the ones in module Keys.
*/
module DotTriggers {
  import opened Optional
  import opened Text
  import opened Keys
  import opened Resources
  import opened GraphModel

  /** The loop's state: the `nodes` table, the nodes and edges added to the graph, and the next fresh id. */
  datatype DotState = DotState(nodes: map<string, Node>, drawn: seq<Node>, edges: seq<Edge>, next: nat)

  const Start := DotState(map[], [], [], 0)

  /** A fresh top-level node added to the graph. */
  function DrawTop(s: DotState, name: string): (DotState, Node) {
    var n := Node(s.next, name, None, TopLevel);
    (s.(drawn := s.drawn + [n], next := s.next + 1), n)
  }

  /** Lookup-or-insert of a top-level node under `key`. */
  function LookupOrDraw(s: DotState, key: string, name: string): (r: (DotState, Node))
    ensures key in r.0.nodes && r.0.nodes[key] == r.1
    ensures key in s.nodes ==> r.0 == s
    ensures key !in s.nodes ==> r.0.nodes == s.nodes[key := r.1] && r.1 == Node(s.next, name, None, TopLevel)
    ensures key !in s.nodes ==> r.0.drawn == s.drawn + [r.1] && r.0.next == s.next + 1
    ensures r.0.edges == s.edges
  {
    if key in s.nodes then (s, s.nodes[key])
    else
      var (s1, n) := DrawTop(s, name);
      (s1.(nodes := s1.nodes[key := n]), n)
  }

  /** How this builder names a subscriber: its DNS name, `<kind>/<name>` of its reference, or `?`. */
  function SubscriberName(sub: Subscriber): (r: string)
    ensures sub.dnsName.Some? ==> r == sub.dnsName.value && SubscriberKey(sub) == UriKey(r)
    ensures sub.dnsName.None? && sub.ref.Some? ==> r == sub.ref.value.kind + "/" + sub.ref.value.name
    ensures sub.dnsName.None? && sub.ref.None? ==> r == "?" && SubscriberKey(sub) == ""
  {
    match (sub.dnsName, sub.ref)
    case (Some(dns), _) => dns
    case (None, Some(ref)) => ref.kind + "/" + ref.name
    case (None, None) => "?"
  }

  /** The subscriber edge's label: the filter text, or the empty string without filter criteria. */
  function EdgeLabel(t: Trigger): (r: string)
    ensures HasSourceAndType(t) ==>
      r == "Source:" + t.filter.value.sourceAndType.value.source + "\nType:" + t.filter.value.sourceAndType.value.eventType
    ensures !HasSourceAndType(t) ==> r == ""
  {
    FilterText(t).GetOr("")
  }

  predicate IsBrokerNode(n: Node) {
    HasPrefix(n.name, "Broker ")
  }

  /** The broker name a broker node was drawn for. */
  function BrokerOf(n: Node): string
    requires IsBrokerNode(n)
  {
    n.name[7..]
  }

  /** Every recorded node has an id below the counter. */
  predicate IdsBelowNext(s: DotState) {
    forall k :: k in s.nodes ==> s.nodes[k].id < s.next
  }

  /** A node whose name starts with another letter than `B` is not a broker node. */
  lemma NotBrokerNode(n: Node)
    requires |n.name| > 0 && n.name[0] != 'B'
    ensures !IsBrokerNode(n)
  {
  }

  /**
    The broker and trigger part of one iteration: the broker node is looked
    up or drawn, a fresh trigger node is drawn and recorded, and one
    unlabelled edge joins the broker to the trigger.
  */
  function BrokerAndTrigger(s: DotState, t: Trigger): (r: (DotState, Node))
    requires IdsBelowNext(s)
    ensures IdsBelowNext(r.0)
    ensures var bk := BrokerKey(t.broker);
      && bk in r.0.nodes
      && r.0.nodes.Keys == s.nodes.Keys + {bk, TriggerKey(t.name)}
      && (forall k :: k in s.nodes && k != TriggerKey(t.name) ==> r.0.nodes[k] == s.nodes[k])
      && (bk !in s.nodes ==> r.0.nodes[bk] == Node(s.next, "Broker " + t.broker, None, TopLevel))
    ensures r.1 == Node(r.1.id, "Trigger " + t.name, None, TopLevel) && r.1.id >= s.next
    ensures TriggerKey(t.name) in r.0.nodes && r.0.nodes[TriggerKey(t.name)] == r.1
    ensures r.0.edges == s.edges + [Edge(r.0.nodes[BrokerKey(t.broker)], r.1, None)]
    ensures var bk := BrokerKey(t.broker);
      r.0.drawn == s.drawn + (if bk !in s.nodes then [r.0.nodes[bk]] else []) + [r.1]
    ensures s.drawn <= r.0.drawn
    ensures forall i :: |s.drawn| <= i < |r.0.drawn| && IsBrokerNode(r.0.drawn[i]) ==>
      i == |s.drawn| && BrokerKey(t.broker) !in s.nodes && r.0.drawn[i].name == "Broker " + t.broker
  {
    BrokerTriggerDisjoint(t.broker, t.name);
    var bk := BrokerKey(t.broker);
    var (s1, bn) := LookupOrDraw(s, bk, "Broker " + t.broker);
    var (s2, tn) := DrawTop(s1, "Trigger " + t.name);
    NotBrokerNode(tn);
    (s2.(nodes := s2.nodes[TriggerKey(t.name) := tn], edges := s2.edges + [Edge(bn, tn, None)]), tn)
  }

  /**
    The subscriber part of one iteration: the subscriber key gets an entry
    only the first time it is seen, and the edge goes to a separate, freshly
    drawn node that no key of the table names.
  */
  function ConnectSubscriber(s: DotState, tn: Node, sub: Subscriber, text: string): (r: DotState)
    requires IdsBelowNext(s)
    ensures IdsBelowNext(r)
    ensures var key := SubscriberKey(sub);
      && key in r.nodes
      && (key in s.nodes ==> r.nodes == s.nodes)
      && (key !in s.nodes ==> r.nodes == s.nodes[key := Node(s.next, "subscriber " + SubscriberName(sub), None, TopLevel)])
    ensures |r.edges| == |s.edges| + 1 && r.edges[..|s.edges|] == s.edges
    ensures var e := r.edges[|s.edges|];
      && e.from == tn && e.labelAttr == Some(text)
      && e.to == Node(e.to.id, "subscriber " + SubscriberName(sub), None, TopLevel)
      && e.to.id >= s.next
      && e.to !in r.nodes.Values
    ensures var key := SubscriberKey(sub);
      r.drawn == s.drawn + (if key !in s.nodes then [r.nodes[key]] else []) + [r.edges[|s.edges|].to]
    ensures s.drawn <= r.drawn
    ensures forall i :: |s.drawn| <= i < |r.drawn| ==> !IsBrokerNode(r.drawn[i])
  {
    var name := "subscriber " + SubscriberName(sub);
    var (s1, sn) := LookupOrDraw(s, SubscriberKey(sub), name);
    var (s2, dns) := DrawTop(s1, name);
    assert forall k :: k in s1.nodes ==> s1.nodes[k].id < dns.id;
    assert name[0] == 's';
    assert forall i :: |s.drawn| <= i < |s2.drawn| ==> s2.drawn[i].name == name;
    s2.(edges := s2.edges + [Edge(tn, dns, Some(text))])
  }

  /** One iteration of the loop over triggers, as written; `Step` gives it its contract. */
  function Iterate(s: DotState, t: Trigger): DotState
    requires IdsBelowNext(s)
  {
    var (s1, tn) := BrokerAndTrigger(s, t);
    if t.subscriber.None? then s1
    else ConnectSubscriber(s1, tn, t.subscriber.value, EdgeLabel(t))
  }

  /** What one iteration keeps and adds to the node table. */
  lemma IterateTable(s: DotState, t: Trigger)
    requires IdsBelowNext(s)
    ensures var r := Iterate(s, t);
      IdsBelowNext(r)
    ensures var r := Iterate(s, t);
      r.nodes.Keys == s.nodes.Keys + {BrokerKey(t.broker), TriggerKey(t.name)}
      + (if t.subscriber.Some? then {SubscriberKey(t.subscriber.value)} else {})
    ensures var r := Iterate(s, t);
      forall k :: k in s.nodes && k != TriggerKey(t.name) ==> r.nodes[k] == s.nodes[k]
    ensures var r := Iterate(s, t);
      BrokerKey(t.broker) in r.nodes && TriggerKey(t.name) in r.nodes
  {
    var (s1, tn) := BrokerAndTrigger(s, t);
    if t.subscriber.Some? {
      var sub := t.subscriber.value;
      var r := ConnectSubscriber(s1, tn, sub, EdgeLabel(t));
      var bk := BrokerKey(t.broker);
      var sk := SubscriberKey(sub);
      assert r.edges[|s.edges|] == s1.edges[|s.edges|];
      assert sk !in s1.nodes <==> sk !in s.nodes && sk != bk && sk != TriggerKey(t.name);
      assert r.nodes[bk] == s1.nodes[bk];
    }
  }

  /** The broker part of one iteration: its edge, its node and the nodes drawn. */
  lemma IterateBroker(s: DotState, t: Trigger)
    requires IdsBelowNext(s)
    ensures var r := Iterate(s, t);
      |r.edges| == |s.edges| + (if t.subscriber.Some? then 2 else 1)
    ensures var r := Iterate(s, t);
      r.edges[..|s.edges|] == s.edges
    ensures var r := Iterate(s, t);
      var bk := BrokerKey(t.broker);
      && (bk in s.nodes ==> r.nodes[bk] == s.nodes[bk] && r.edges[|s.edges|].from == s.nodes[bk])
      && (bk !in s.nodes ==> r.nodes[bk] == Node(s.next, "Broker " + t.broker, None, TopLevel) && r.edges[|s.edges|].from == r.nodes[bk])
    ensures var r := Iterate(s, t);
      s.drawn <= r.drawn
    ensures var r := Iterate(s, t);
      forall i :: |s.drawn| <= i < |r.drawn| && IsBrokerNode(r.drawn[i]) ==>
      i == |s.drawn| && BrokerKey(t.broker) !in s.nodes && r.drawn[i].name == "Broker " + t.broker
  {
    var (s1, tn) := BrokerAndTrigger(s, t);
    if t.subscriber.Some? {
      var sub := t.subscriber.value;
      var r := ConnectSubscriber(s1, tn, sub, EdgeLabel(t));
      var bk := BrokerKey(t.broker);
      var sk := SubscriberKey(sub);
      assert r.edges[|s.edges|] == s1.edges[|s.edges|];
      assert sk !in s1.nodes <==> sk !in s.nodes && sk != bk && sk != TriggerKey(t.name);
      assert r.nodes[bk] == s1.nodes[bk];
    }
  }

  /** The edges one iteration appends and the nodes at their ends. */
  lemma IterateEdges(s: DotState, t: Trigger)
    requires IdsBelowNext(s)
    ensures var r := Iterate(s, t);
      var tn := r.edges[|s.edges|].to;
      && tn == Node(tn.id, "Trigger " + t.name, None, TopLevel) && tn.id >= s.next
      && r.edges[|s.edges|].labelAttr == None
      && r.nodes[TriggerKey(t.name)] == tn
    ensures var r := Iterate(s, t);
      var bk := BrokerKey(t.broker);
      t.subscriber.None? ==>
        r.drawn == s.drawn + (if bk !in s.nodes then [r.nodes[bk]] else []) + [r.edges[|s.edges|].to]
    ensures var r := Iterate(s, t);
      var bk := BrokerKey(t.broker); var tk := TriggerKey(t.name);
      t.subscriber.Some? ==>
        var sk := SubscriberKey(t.subscriber.value);
        r.drawn == s.drawn + (if bk !in s.nodes then [r.nodes[bk]] else []) + [r.edges[|s.edges|].to]
          + (if sk !in s.nodes && sk != bk && sk != tk then [r.nodes[sk]] else []) + [r.edges[|s.edges| + 1].to]
    ensures var r := Iterate(s, t);
      t.subscriber.Some? ==>
      var e := r.edges[|s.edges| + 1];
      && e.from == r.edges[|s.edges|].to
      && e.labelAttr == Some(EdgeLabel(t))
      && e.to == Node(e.to.id, "subscriber " + SubscriberName(t.subscriber.value), None, TopLevel)
      && e.to.id >= s.next
      && e.to !in r.nodes.Values
    ensures var r := Iterate(s, t);
      t.subscriber.Some? ==>
      var sk := SubscriberKey(t.subscriber.value);
      && sk in r.nodes
      && (sk in s.nodes && sk != TriggerKey(t.name) ==> r.nodes[sk] == s.nodes[sk])
      && (sk !in s.nodes && sk != BrokerKey(t.broker) && sk != TriggerKey(t.name) ==>
            && r.nodes[sk] == Node(r.nodes[sk].id, "subscriber " + SubscriberName(t.subscriber.value), None, TopLevel)
            && r.nodes[sk].id >= s.next)
  {
    StepDrawsExactly(s, t);
    var (s1, tn) := BrokerAndTrigger(s, t);
    if t.subscriber.Some? {
      var sub := t.subscriber.value;
      var r := ConnectSubscriber(s1, tn, sub, EdgeLabel(t));
      var bk := BrokerKey(t.broker);
      var sk := SubscriberKey(sub);
      assert r.edges[|s.edges|] == s1.edges[|s.edges|];
      assert sk !in s1.nodes <==> sk !in s.nodes && sk != bk && sk != TriggerKey(t.name);
      assert r.nodes[bk] == s1.nodes[bk];
    }
  }

  /** One iteration of the loop over triggers. */
  function Step(s: DotState, t: Trigger): (r: DotState)
    requires IdsBelowNext(s)
    ensures IdsBelowNext(r)
    ensures |r.edges| == |s.edges| + (if t.subscriber.Some? then 2 else 1)
    ensures r.edges[..|s.edges|] == s.edges
    ensures r.nodes.Keys == s.nodes.Keys + {BrokerKey(t.broker), TriggerKey(t.name)}
      + (if t.subscriber.Some? then {SubscriberKey(t.subscriber.value)} else {})
    ensures forall k :: k in s.nodes && k != TriggerKey(t.name) ==> r.nodes[k] == s.nodes[k]
    ensures BrokerKey(t.broker) in r.nodes && TriggerKey(t.name) in r.nodes
    ensures var bk := BrokerKey(t.broker);
      && (bk in s.nodes ==> r.nodes[bk] == s.nodes[bk] && r.edges[|s.edges|].from == s.nodes[bk])
      && (bk !in s.nodes ==> r.nodes[bk] == Node(s.next, "Broker " + t.broker, None, TopLevel) && r.edges[|s.edges|].from == r.nodes[bk])
    ensures s.drawn <= r.drawn
    ensures forall i :: |s.drawn| <= i < |r.drawn| && IsBrokerNode(r.drawn[i]) ==>
      i == |s.drawn| && BrokerKey(t.broker) !in s.nodes && r.drawn[i].name == "Broker " + t.broker
    ensures var tn := r.edges[|s.edges|].to;
      && tn == Node(tn.id, "Trigger " + t.name, None, TopLevel) && tn.id >= s.next
      && r.edges[|s.edges|].labelAttr == None
      && r.nodes[TriggerKey(t.name)] == tn
    ensures var bk := BrokerKey(t.broker);
      t.subscriber.None? ==>
        r.drawn == s.drawn + (if bk !in s.nodes then [r.nodes[bk]] else []) + [r.edges[|s.edges|].to]
    ensures var bk := BrokerKey(t.broker); var tk := TriggerKey(t.name);
      t.subscriber.Some? ==>
        var sk := SubscriberKey(t.subscriber.value);
        r.drawn == s.drawn + (if bk !in s.nodes then [r.nodes[bk]] else []) + [r.edges[|s.edges|].to]
          + (if sk !in s.nodes && sk != bk && sk != tk then [r.nodes[sk]] else []) + [r.edges[|s.edges| + 1].to]
    ensures t.subscriber.Some? ==>
      var e := r.edges[|s.edges| + 1];
      && e.from == r.edges[|s.edges|].to
      && e.labelAttr == Some(EdgeLabel(t))
      && e.to == Node(e.to.id, "subscriber " + SubscriberName(t.subscriber.value), None, TopLevel)
      && e.to.id >= s.next
      && e.to !in r.nodes.Values
    ensures t.subscriber.Some? ==>
      var sk := SubscriberKey(t.subscriber.value);
      && sk in r.nodes
      && (sk in s.nodes && sk != TriggerKey(t.name) ==> r.nodes[sk] == s.nodes[sk])
      && (sk !in s.nodes && sk != BrokerKey(t.broker) && sk != TriggerKey(t.name) ==>
            && r.nodes[sk] == Node(r.nodes[sk].id, "subscriber " + SubscriberName(t.subscriber.value), None, TopLevel)
            && r.nodes[sk].id >= s.next)
  {
    IterateTable(s, t);
    IterateBroker(s, t);
    IterateEdges(s, t);
    Iterate(s, t)
  }

  /** The nodes the two halves of one iteration add to the graph, in order, stated against the state before both. */
  lemma StepDrawsExactly(s: DotState, t: Trigger)
    requires IdsBelowNext(s)
    ensures var (s1, tn) := BrokerAndTrigger(s, t); var bk := BrokerKey(t.broker); var tk := TriggerKey(t.name);
      t.subscriber.Some? ==>
        var r := ConnectSubscriber(s1, tn, t.subscriber.value, EdgeLabel(t)); var sk := SubscriberKey(t.subscriber.value);
        && |r.edges| == |s.edges| + 2 && r.edges[|s.edges|].to == tn
        && r.drawn == s.drawn + (if bk !in s.nodes then [r.nodes[bk]] else []) + [tn]
             + (if sk !in s.nodes && sk != bk && sk != tk then [r.nodes[sk]] else []) + [r.edges[|s.edges| + 1].to]
  {
    var (s1, tn) := BrokerAndTrigger(s, t);
    if t.subscriber.Some? {
      var r := ConnectSubscriber(s1, tn, t.subscriber.value, EdgeLabel(t));
      var bk := BrokerKey(t.broker);
      var sk := SubscriberKey(t.subscriber.value);
      assert r.edges[|s.edges|] == s1.edges[|s.edges|];
      assert sk !in s1.nodes <==> sk !in s.nodes && sk != bk && sk != TriggerKey(t.name);
      assert r.nodes[bk] == s1.nodes[bk];
    }
  }

  /** The state after the first `|ts|` iterations, in listing order. */
  function Run(ts: seq<Trigger>): (r: DotState)
    ensures IdsBelowNext(r)
  {
    if |ts| == 0 then Start else Step(Run(ts[..|ts| - 1]), ts[|ts| - 1])
  }

  /** The loop of `main`, iterating over the listed triggers. */
  method Build(ts: seq<Trigger>) returns (s: DotState)
    ensures s == Run(ts)
    ensures IdsBelowNext(s)
  {
    s := Start;
    var i := 0;
    while i < |ts|
      invariant 0 <= i <= |ts|
      invariant s == Run(ts[..i])
    {
      RunPrefix(ts, i);
      s := Step(s, ts[i]);
      i := i + 1;
    }
    assert ts[..i] == ts;
  }

  /** The number of triggers that name a subscriber. */
  function CountSubscribed(ts: seq<Trigger>): nat {
    if |ts| == 0 then 0 else CountSubscribed(ts[..|ts| - 1]) + (if ts[|ts| - 1].subscriber.Some? then 1 else 0)
  }

  /** After n triggers there are n broker edges plus one subscriber edge per trigger with a subscriber. */
  lemma {:induction false} EdgeCount(ts: seq<Trigger>)
    ensures |Run(ts).edges| == |ts| + CountSubscribed(ts)
  {
    if |ts| > 0 {
      EdgeCount(ts[..|ts| - 1]);
    }
  }

  /** Every broker node drawn so far has its broker key recorded. */
  predicate BrokersRecorded(s: DotState) {
    forall i :: 0 <= i < |s.drawn| && IsBrokerNode(s.drawn[i]) ==> BrokerKey(BrokerOf(s.drawn[i])) in s.nodes
  }

  /** No two drawn broker nodes share a broker key. */
  predicate BrokersDistinct(s: DotState) {
    forall i, j :: 0 <= i < j < |s.drawn| && IsBrokerNode(s.drawn[i]) && IsBrokerNode(s.drawn[j]) ==>
      BrokerKey(BrokerOf(s.drawn[i])) != BrokerKey(BrokerOf(s.drawn[j]))
  }

  lemma {:induction false} StepKeepsBrokersUnique(s: DotState, t: Trigger)
    requires IdsBelowNext(s) && BrokersRecorded(s) && BrokersDistinct(s)
    ensures BrokersRecorded(Step(s, t)) && BrokersDistinct(Step(s, t))
  {
    var r := Step(s, t);
    var bk := BrokerKey(t.broker);
    assert ("Broker " + t.broker)[7..] == t.broker;
    forall i | 0 <= i < |r.drawn| && IsBrokerNode(r.drawn[i])
      ensures BrokerKey(BrokerOf(r.drawn[i])) in r.nodes
    {
      if i < |s.drawn| {
        assert r.drawn[i] == s.drawn[i];
      }
    }
    forall i, j | 0 <= i < j < |r.drawn| && IsBrokerNode(r.drawn[i]) && IsBrokerNode(r.drawn[j])
      ensures BrokerKey(BrokerOf(r.drawn[i])) != BrokerKey(BrokerOf(r.drawn[j]))
    {
      assert r.drawn[i] == s.drawn[i];
      if j < |s.drawn| {
        assert r.drawn[j] == s.drawn[j];
      } else {
        assert BrokerKey(BrokerOf(r.drawn[j])) == bk;
      }
    }
  }

  /**
    Across the whole pass at most one broker node is drawn per broker key:
    later triggers naming the same broker, in any letter case, reuse it.
  */
  lemma {:induction false} BrokerNodesUnique(ts: seq<Trigger>)
    ensures BrokersRecorded(Run(ts)) && BrokersDistinct(Run(ts))
  {
    if |ts| > 0 {
      BrokerNodesUnique(ts[..|ts| - 1]);
      StepKeepsBrokersUnique(Run(ts[..|ts| - 1]), ts[|ts| - 1]);
    }
  }

  /** After the pass every trigger's broker has an entry in the node table. */
  lemma {:induction false} EveryBrokerRecorded(ts: seq<Trigger>)
    ensures forall i :: 0 <= i < |ts| ==> BrokerKey(ts[i].broker) in Run(ts).nodes
  {
    if |ts| > 0 {
      var init := ts[..|ts| - 1];
      EveryBrokerRecorded(init);
      forall i | 0 <= i < |ts|
        ensures BrokerKey(ts[i].broker) in Run(ts).nodes
      {
        if i < |ts| - 1 {
          assert ts[i] == init[i];
        }
      }
    }
  }

  /**
    Once a broker key has an entry, no later iteration changes it: the
    triggers that follow only overwrite their own trigger keys, and a
    broker key is never a trigger key.
  */
  lemma {:induction false} BrokerNodeStable(ts: seq<Trigger>, i: nat, name: string)
    requires i <= |ts|
    requires BrokerKey(name) in Run(ts[..i]).nodes
    ensures BrokerKey(name) in Run(ts).nodes
    ensures Run(ts).nodes[BrokerKey(name)] == Run(ts[..i]).nodes[BrokerKey(name)]
    decreases |ts|
  {
    if i == |ts| {
      assert ts[..i] == ts;
    } else {
      var init := ts[..|ts| - 1];
      assert init[..i] == ts[..i];
      BrokerNodeStable(init, i, name);
      BrokerTriggerDisjoint(name, ts[|ts| - 1].name);
    }
  }

  /**
    Two triggers naming the same broker are joined to the same broker node:
    the broker edge of the later trigger `j` starts at the node recorded for
    the broker when the earlier trigger `i` was processed, whatever other
    brokers came in between.
  */
  lemma {:induction false} SameBrokerSameNode(ts: seq<Trigger>, i: nat, j: nat)
    requires i < j < |ts|
    requires BrokerKey(ts[i].broker) == BrokerKey(ts[j].broker)
    ensures BrokerKey(ts[i].broker) in Run(ts[..i + 1]).nodes
    ensures var before := |Run(ts[..j]).edges|; var r := Run(ts[..j + 1]);
      before < |r.edges| && r.edges[before].from == Run(ts[..i + 1]).nodes[BrokerKey(ts[i].broker)]
  {
    BrokerRecordedAfter(ts, i);
    assert ts[..j][..i + 1] == ts[..i + 1];
    BrokerNodeStable(ts[..j], i + 1, ts[j].broker);
    BrokerEdgeAt(ts, j);
  }

  /** Trigger `i`'s broker has an entry once trigger `i` is processed. */
  lemma BrokerRecordedAfter(ts: seq<Trigger>, i: nat)
    requires i < |ts|
    ensures BrokerKey(ts[i].broker) in Run(ts[..i + 1]).nodes
  {
    RunLast(ts[..i + 1]);
    assert ts[..i + 1][..i] == ts[..i];
  }

  /** When trigger `j`'s broker already has an entry, trigger `j`'s broker edge starts at that entry. */
  lemma BrokerEdgeAt(ts: seq<Trigger>, j: nat)
    requires j < |ts|
    requires BrokerKey(ts[j].broker) in Run(ts[..j]).nodes
    ensures var before := |Run(ts[..j]).edges|; var r := Run(ts[..j + 1]);
      before < |r.edges| && r.edges[before].from == Run(ts[..j]).nodes[BrokerKey(ts[j].broker)]
  {
    RunLast(ts[..j + 1]);
    assert ts[..j + 1][..j] == ts[..j];
    StepBrokerEdge(Run(ts[..j]), ts[j]);
  }

  /** The fold after `i + 1` triggers is one more iteration of the fold after `i`. */
  lemma RunPrefix(ts: seq<Trigger>, i: nat)
    requires i < |ts|
    ensures Run(ts[..i + 1]) == Step(Run(ts[..i]), ts[i])
  {
    assert ts[..i + 1][..i] == ts[..i];
    RunLast(ts[..i + 1]);
  }

  /** The fold's last iteration. */
  lemma RunLast(ts: seq<Trigger>)
    requires |ts| > 0
    ensures Run(ts) == Step(Run(ts[..|ts| - 1]), ts[|ts| - 1])
  {
  }

  /** An iteration whose broker already has an entry starts its broker edge at that entry. */
  lemma StepBrokerEdge(s: DotState, t: Trigger)
    requires IdsBelowNext(s)
    requires BrokerKey(t.broker) in s.nodes
    ensures |s.edges| < |Step(s, t).edges|
    ensures Step(s, t).edges[|s.edges|].from == s.nodes[BrokerKey(t.broker)]
  {
  }
}

=== FILE: graph.dfy ===
/**
  The graph-model builder of pkg/graph/graph.go: one immutable state record
  and the three ingestors `AddBroker`, `AddSource` and `AddTrigger` as
  state-to-state functions.

  Nodes and clusters of the rendering library are abstract records that carry
  a fresh identity (`id`, drawn from the counter `next`), the name they were
  created with, the `label` attribute when one is set, and where they were
  added: the top-level graph or a cluster.
*/
module GraphModel {
  import opened Optional
  import opened Text
  import opened Keys
  import opened Addresses
  import opened Resources

  /** Where a node was added: to the graph itself or to the cluster with the given id. */
  datatype Parent = TopLevel | InCluster(cluster: nat)

  datatype Node = Node(id: nat, name: string, labelAttr: Option<string>, parent: Parent)

  /** A `cluster_<n>` subgraph; its label names the broker it draws. */
  datatype Cluster = Cluster(id: nat, name: string, labelAttr: string)

  datatype Edge = Edge(from: Node, to: Node, labelAttr: Option<string>)

  /**
    The builder's state. `nodes`, `subgraphs` and `dnsToKey` are the three
    bookkeeping tables of the source; `clusters`, `drawn` and `edges` are what
    has been added to the rendered graph, in order; `next` is the next fresh id.
  */
  datatype Graph = Graph(
    title: string,
    nodes: map<string, Node>,
    subgraphs: map<string, Cluster>,
    dnsToKey: map<string, string>,
    clusters: seq<Cluster>,
    drawn: seq<Node>,
    edges: seq<Edge>,
    next: nat
  )

  function ClusterIds(g: Graph): set<nat> {
    set c | c in g.clusters :: c.id
  }

  /**
    The structural invariant the builder keeps: ids are fresh and distinct,
    every recorded node and cluster was actually added to the graph, every
    edge joins drawn nodes, and every clustered node sits in a drawn cluster.
  */
  predicate Valid(g: Graph) {
    && (forall i :: 0 <= i < |g.drawn| ==> g.drawn[i].id < g.next)
    && (forall i, j :: 0 <= i < j < |g.drawn| ==> g.drawn[i].id != g.drawn[j].id)
    && (forall i :: 0 <= i < |g.clusters| ==> g.clusters[i].id < g.next)
    && (forall k :: k in g.nodes ==> g.nodes[k] in g.drawn)
    && (forall k :: k in g.subgraphs ==> g.subgraphs[k] in g.clusters)
    && (forall i :: 0 <= i < |g.edges| ==> g.edges[i].from in g.drawn && g.edges[i].to in g.drawn)
    && (forall i :: 0 <= i < |g.drawn| && g.drawn[i].parent.InCluster? ==> g.drawn[i].parent.cluster in ClusterIds(g))
  }

  /** A sink address resolves when it is bound to a key that names a recorded node. */
  predicate Resolves(g: Graph, address: string) {
    address in g.dnsToKey && g.dnsToKey[address] in g.nodes
  }

  /** `New(ns)`: an empty graph titled after the namespace. */
  function New(ns: string): (g: Graph)
    ensures Valid(g)
    ensures g.nodes == map[] && g.subgraphs == map[] && g.dnsToKey == map[]
    ensures g.drawn == [] && g.edges == [] && g.clusters == []
  {
    Graph("Triggers in " + ns, map[], map[], map[], [], [], [], 0)
  }

  /** `NewNode(name)` added to the graph or to a cluster: a node with a fresh id, appended to `drawn`. */
  function Draw(g: Graph, name: string, labelAttr: Option<string>, parent: Parent): (Graph, Node) {
    var n := Node(g.next, name, labelAttr, parent);
    (g.(drawn := g.drawn + [n], next := g.next + 1), n)
  }

  /** `nodes[key] = n`. */
  function Record(g: Graph, key: string, n: Node): Graph {
    g.(nodes := g.nodes[key := n])
  }

  /** `AddEdge(NewEdge(from, to))`, appended after every earlier edge. */
  function Connect(g: Graph, from: Node, to: Node, labelAttr: Option<string>): Graph {
    g.(edges := g.edges + [Edge(from, to, labelAttr)])
  }

  /**
    Lookup-or-insert on the node table: the node recorded under `key`, or a
    fresh top-level node called `name`, added to the graph and recorded.
  */
  function Upsert(g: Graph, key: string, name: string): (r: (Graph, Node))
    ensures key in r.0.nodes && r.0.nodes[key] == r.1
    ensures key in g.nodes ==> r.0 == g
    ensures key !in g.nodes ==> r.0.nodes == g.nodes[key := r.1]
    ensures key !in g.nodes ==> r.1.id == g.next && r.1.name == name && r.1.labelAttr == None && r.1.parent == TopLevel
    ensures key !in g.nodes ==> r.0.drawn == g.drawn + [r.1] && r.0.next == g.next + 1
    ensures r.0.subgraphs == g.subgraphs && r.0.dnsToKey == g.dnsToKey
    ensures r.0.clusters == g.clusters && r.0.edges == g.edges
  {
    if key in g.nodes then (g, g.nodes[key])
    else
      var (g1, n) := Draw(g, name, None, TopLevel);
      (Record(g1, key, n), n)
  }

  /**
    `AddBroker`: an ingress node inside a new `cluster_<n>` cluster, where n
    is the number of clusters recorded so far. The node, the cluster and the
    address binding are written unconditionally, replacing earlier entries
    under the same key or address; no edge is drawn.
  */
  function AddBroker(g: Graph, b: Broker): (r: Graph)
    ensures var k := BrokerKey(b.name);
      && k in r.nodes && k in r.subgraphs
      && r.nodes == g.nodes[k := r.nodes[k]]
      && r.subgraphs == g.subgraphs[k := r.subgraphs[k]]
      && r.dnsToKey == g.dnsToKey[BrokerDns(b.hostname) := k]
    ensures var k := BrokerKey(b.name); var n := r.nodes[k]; var c := r.subgraphs[k];
      && n.name == "Broker " + BrokerDns(b.hostname) && n.labelAttr == Some("Ingress")
      && n.parent == InCluster(c.id)
      && c.name == "cluster_" + Decimal(|g.subgraphs|)
      && c.labelAttr == "Broker " + b.name + "\n" + BrokerDns(b.hostname)
      && n.id >= g.next && c.id >= g.next && n.id != c.id
      && r.drawn == g.drawn + [n] && r.clusters == g.clusters + [c]
    ensures r.edges == g.edges
  {
    var key := BrokerKey(b.name);
    var dns := BrokerDns(b.hostname);
    var c := Cluster(g.next + 1, "cluster_" + Decimal(|g.subgraphs|), "Broker " + b.name + "\n" + dns);
    var bn := Node(g.next, "Broker " + dns, Some("Ingress"), InCluster(c.id));
    g.(nodes := g.nodes[key := bn],
       dnsToKey := g.dnsToKey[dns := key],
       subgraphs := g.subgraphs[key := c],
       clusters := g.clusters + [c],
       drawn := g.drawn + [bn],
       next := g.next + 2)
  }

  /**
    `AddSource`: a top-level source node recorded under its group/version/kind
    key, then, when the source reports a sink, one edge to the broker node
    bound to that address, or to an `UnknownSink` node that is drawn but not
    recorded when the address does not resolve.
  */
  function AddSource(g: Graph, s: Source): (r: Graph)
    ensures r.subgraphs == g.subgraphs && r.dnsToKey == g.dnsToKey && r.clusters == g.clusters
    ensures var key := GvkKey(s.gvk, s.name);
      && key in r.nodes && r.nodes == g.nodes[key := r.nodes[key]]
      && r.nodes[key].id == g.next && r.nodes[key].parent == TopLevel && r.nodes[key].labelAttr == None
      && r.nodes[key].name == "Source " + s.name + "\nKind: " + s.kind + "\n" + s.apiVersion
    ensures s.sinkUri.None? ==> r.edges == g.edges && r.drawn == g.drawn + [r.nodes[GvkKey(s.gvk, s.name)]]
    ensures s.sinkUri.Some? ==>
      && |r.edges| == |g.edges| + 1 && r.edges[..|g.edges|] == g.edges
      && r.edges[|g.edges|].from == r.nodes[GvkKey(s.gvk, s.name)]
      && r.edges[|g.edges|].labelAttr == None
    ensures var sink := SinkDns(s.sinkUri);
      s.sinkUri.Some? && Resolves(r, sink) ==>
        && r.edges[|g.edges|].to == r.nodes[r.dnsToKey[sink]]
        && r.drawn == g.drawn + [r.nodes[GvkKey(s.gvk, s.name)]]
    ensures var sink := SinkDns(s.sinkUri);
      s.sinkUri.Some? && !Resolves(r, sink) ==>
        && r.edges[|g.edges|].to == Node(g.next + 1, "UnknownSink " + sink, None, TopLevel)
        && r.drawn == g.drawn + [r.nodes[GvkKey(s.gvk, s.name)], r.edges[|g.edges|].to]
  {
    var (g0, sn) := Draw(g, "Source " + s.name + "\nKind: " + s.kind + "\n" + s.apiVersion, None, TopLevel);
    var g1 := Record(g0, GvkKey(s.gvk, s.name), sn);
    var sink := SinkDns(s.sinkUri);
    if sink == "" then g1
    else if Resolves(g1, sink) then Connect(g1, sn, g1.nodes[g1.dnsToKey[sink]], None)
    else
      var (g2, un) := Draw(g1, "UnknownSink " + sink, None, TopLevel);
      Connect(g2, sn, un, None)
  }

  /** The trigger node's `label` attribute: its name followed by the filter criteria, when there are any. */
  function TriggerLabel(t: Trigger): (r: Option<string>)
    ensures r.Some? <==> HasSourceAndType(t)
    ensures r.Some? ==>
      var st := t.filter.value.sourceAndType.value;
      r.value == "Trigger " + t.name + "\nSource:" + st.source + "\nType:" + st.eventType
  {
    match FilterText(t)
    case None => None
    case Some(text) => Some("Trigger " + t.name + "\n" + text)
  }

  /** How a subscriber node is named: its DNS name, its reference spelled out, or `?`. */
  function SubscriberName(s: Subscriber): (r: string)
    ensures s.dnsName.Some? ==> r == s.dnsName.value && SubscriberKey(s) == UriKey(r)
    ensures s.dnsName.None? && s.ref.Some? ==>
      r == s.ref.value.name + "\nKind: " + s.ref.value.kind + "\n" + s.ref.value.apiVersion
    ensures s.dnsName.None? && s.ref.None? ==> r == "?" && SubscriberKey(s) == ""
  {
    match (s.dnsName, s.ref)
    case (Some(dns), _) => dns
    case (None, Some(ref)) => ref.name + "\nKind: " + ref.kind + "\n" + ref.apiVersion
    case (None, None) => "?"
  }

  /**
    The middle of `AddTrigger`: a fresh trigger node, inside the broker's
    cluster when one is recorded under `bk` and at top level otherwise,
    recorded under the trigger's key.
  */
  function PlaceTrigger(g: Graph, t: Trigger): (r: (Graph, Node))
    ensures var bk := BrokerKey(t.broker);
      r.1.parent == (if bk in g.subgraphs then InCluster(g.subgraphs[bk].id) else TopLevel)
    ensures r.1.id == g.next && r.1.name == "Trigger " + t.name && r.1.labelAttr == TriggerLabel(t)
    ensures r.0.nodes == g.nodes[TriggerKey(t.name) := r.1]
    ensures r.0.drawn == g.drawn + [r.1] && r.0.next == g.next + 1
    ensures r.0.subgraphs == g.subgraphs && r.0.dnsToKey == g.dnsToKey
    ensures r.0.clusters == g.clusters && r.0.edges == g.edges
  {
    var bk := BrokerKey(t.broker);
    var parent := if bk in g.subgraphs then InCluster(g.subgraphs[bk].id) else TopLevel;
    var (g1, tn) := Draw(g, "Trigger " + t.name, TriggerLabel(t), parent);
    (Record(g1, TriggerKey(t.name), tn), tn)
  }

  /**
    `AddTrigger`: the broker entry is kept when present and otherwise filled
    with a top-level `UnknownBroker` node; the trigger node is placed and
    recorded; a subscriber, when there is one, is looked up or created under
    its key and joined to the trigger by one unlabelled edge.
  */
  function AddTrigger(g: Graph, t: Trigger): (r: Graph)
    ensures r.subgraphs == g.subgraphs && r.dnsToKey == g.dnsToKey && r.clusters == g.clusters
    ensures var bk := BrokerKey(t.broker);
      && bk in r.nodes
      && (bk in g.nodes ==> r.nodes[bk] == g.nodes[bk])
      && (bk !in g.nodes ==> r.nodes[bk] == Node(g.next, "UnknownBroker " + t.broker, None, TopLevel))
    ensures var bk := BrokerKey(t.broker); var tk := TriggerKey(t.name);
      && tk in r.nodes
      && r.nodes[tk].name == "Trigger " + t.name
      && r.nodes[tk].labelAttr == TriggerLabel(t)
      && r.nodes[tk].parent == (if bk in g.subgraphs then InCluster(g.subgraphs[bk].id) else TopLevel)
      && r.nodes[tk].id >= g.next
    ensures forall k :: k in g.nodes && k != TriggerKey(t.name) ==> k in r.nodes && r.nodes[k] == g.nodes[k]
    ensures r.nodes.Keys == g.nodes.Keys + {BrokerKey(t.broker), TriggerKey(t.name)}
      + (if t.subscriber.Some? then {SubscriberKey(t.subscriber.value)} else {})
    ensures var bk := BrokerKey(t.broker); var tk := TriggerKey(t.name);
      t.subscriber.None? ==>
        r.drawn == g.drawn + (if bk !in g.nodes then [r.nodes[bk]] else []) + [r.nodes[tk]]
    ensures var bk := BrokerKey(t.broker); var tk := TriggerKey(t.name);
      t.subscriber.Some? ==>
        var sk := SubscriberKey(t.subscriber.value);
        r.drawn == g.drawn + (if bk !in g.nodes then [r.nodes[bk]] else []) + [r.nodes[tk]]
          + (if sk !in g.nodes && sk != bk && sk != tk then [r.nodes[sk]] else [])
    ensures r.next == g.next + (|r.drawn| - |g.drawn|)
    ensures t.subscriber.None? ==> r.edges == g.edges
    ensures t.subscriber.Some? ==>
      var sk := SubscriberKey(t.subscriber.value);
      && |r.edges| == |g.edges| + 1 && r.edges[..|g.edges|] == g.edges
      && sk in r.nodes
      && r.edges[|g.edges|] == Edge(r.nodes[TriggerKey(t.name)], r.nodes[sk], None)
    ensures t.subscriber.Some? ==>
      var sk := SubscriberKey(t.subscriber.value);
      sk !in g.nodes && sk != BrokerKey(t.broker) && sk != TriggerKey(t.name) ==>
        && r.nodes[sk] == Node(r.nodes[sk].id, "Subscriber " + SubscriberName(t.subscriber.value), None, TopLevel)
        && r.nodes[sk].id >= g.next
  {
    IngestTriggerNodes(g, t);
    IngestTriggerDrawn(g, t);
    IngestTriggerEdges(g, t);
    IngestTrigger(g, t)
  }

  /** `AddTrigger` as written; `AddTrigger` gives it its contract. */
  function IngestTrigger(g: Graph, t: Trigger): Graph {
    var (g2, tn) := BrokerThenTrigger(g, t);
    match t.subscriber
    case None => g2
    case Some(sub) => LinkSubscriber(g2, tn, sub)
  }

  /** The entries `AddTrigger` writes and keeps. */
  lemma IngestTriggerNodes(g: Graph, t: Trigger)
    ensures var r := IngestTrigger(g, t);
      r.subgraphs == g.subgraphs && r.dnsToKey == g.dnsToKey && r.clusters == g.clusters
    ensures var r := IngestTrigger(g, t);
      var bk := BrokerKey(t.broker);
      && bk in r.nodes
      && (bk in g.nodes ==> r.nodes[bk] == g.nodes[bk])
      && (bk !in g.nodes ==> r.nodes[bk] == Node(g.next, "UnknownBroker " + t.broker, None, TopLevel))
    ensures var r := IngestTrigger(g, t);
      var bk := BrokerKey(t.broker); var tk := TriggerKey(t.name);
      && tk in r.nodes
      && r.nodes[tk].name == "Trigger " + t.name
      && r.nodes[tk].labelAttr == TriggerLabel(t)
      && r.nodes[tk].parent == (if bk in g.subgraphs then InCluster(g.subgraphs[bk].id) else TopLevel)
      && r.nodes[tk].id >= g.next
    ensures var r := IngestTrigger(g, t);
      forall k :: k in g.nodes && k != TriggerKey(t.name) ==> k in r.nodes && r.nodes[k] == g.nodes[k]
    ensures var r := IngestTrigger(g, t);
      r.nodes.Keys == g.nodes.Keys + {BrokerKey(t.broker), TriggerKey(t.name)}
      + (if t.subscriber.Some? then {SubscriberKey(t.subscriber.value)} else {})
  {
    BrokerTriggerDisjoint(t.broker, t.name);
    var (g2, tn) := BrokerThenTrigger(g, t);
    var bk := BrokerKey(t.broker);
    var tk := TriggerKey(t.name);
    if t.subscriber.Some? {
      var r := LinkSubscriber(g2, tn, t.subscriber.value);
      var sk := SubscriberKey(t.subscriber.value);
      assert sk !in g2.nodes <==> sk !in g.nodes && sk != bk && sk != tk;
      assert r.nodes[bk] == g2.nodes[bk] && r.nodes[tk] == tn;
    }
  }

  /** The nodes `AddTrigger` draws, in order. */
  lemma IngestTriggerDrawn(g: Graph, t: Trigger)
    ensures var r := IngestTrigger(g, t);
      var bk := BrokerKey(t.broker); var tk := TriggerKey(t.name);
      t.subscriber.None? ==>
        r.drawn == g.drawn + (if bk !in g.nodes then [r.nodes[bk]] else []) + [r.nodes[tk]]
    ensures var r := IngestTrigger(g, t);
      var bk := BrokerKey(t.broker); var tk := TriggerKey(t.name);
      t.subscriber.Some? ==>
        var sk := SubscriberKey(t.subscriber.value);
        r.drawn == g.drawn + (if bk !in g.nodes then [r.nodes[bk]] else []) + [r.nodes[tk]]
          + (if sk !in g.nodes && sk != bk && sk != tk then [r.nodes[sk]] else [])
    ensures var r := IngestTrigger(g, t);
      r.next == g.next + (|r.drawn| - |g.drawn|)
  {
    BrokerTriggerDisjoint(t.broker, t.name);
    var (g2, tn) := BrokerThenTrigger(g, t);
    var bk := BrokerKey(t.broker);
    var tk := TriggerKey(t.name);
    if t.subscriber.Some? {
      var r := LinkSubscriber(g2, tn, t.subscriber.value);
      var sk := SubscriberKey(t.subscriber.value);
      assert sk !in g2.nodes <==> sk !in g.nodes && sk != bk && sk != tk;
      assert r.nodes[bk] == g2.nodes[bk] && r.nodes[tk] == tn;
    }
  }

  /** The edge `AddTrigger` appends and the subscriber node it creates. */
  lemma IngestTriggerEdges(g: Graph, t: Trigger)
    ensures var r := IngestTrigger(g, t);
      t.subscriber.None? ==> r.edges == g.edges
    ensures var r := IngestTrigger(g, t);
      t.subscriber.Some? ==>
      var sk := SubscriberKey(t.subscriber.value);
      && |r.edges| == |g.edges| + 1 && r.edges[..|g.edges|] == g.edges
      && sk in r.nodes
      && r.edges[|g.edges|] == Edge(r.nodes[TriggerKey(t.name)], r.nodes[sk], None)
    ensures var r := IngestTrigger(g, t);
      t.subscriber.Some? ==>
      var sk := SubscriberKey(t.subscriber.value);
      sk !in g.nodes && sk != BrokerKey(t.broker) && sk != TriggerKey(t.name) ==>
        && r.nodes[sk] == Node(r.nodes[sk].id, "Subscriber " + SubscriberName(t.subscriber.value), None, TopLevel)
        && r.nodes[sk].id >= g.next
  {
    BrokerTriggerDisjoint(t.broker, t.name);
    var (g2, tn) := BrokerThenTrigger(g, t);
    var bk := BrokerKey(t.broker);
    var tk := TriggerKey(t.name);
    if t.subscriber.Some? {
      var r := LinkSubscriber(g2, tn, t.subscriber.value);
      var sk := SubscriberKey(t.subscriber.value);
      assert sk !in g2.nodes <==> sk !in g.nodes && sk != bk && sk != tk;
      assert r.nodes[bk] == g2.nodes[bk] && r.nodes[tk] == tn;
    }
  }


  /** The start of `AddTrigger`: the broker entry is looked up or filled with a placeholder, then the trigger is placed. */
  function BrokerThenTrigger(g: Graph, t: Trigger): (r: (Graph, Node))
    ensures var bk := BrokerKey(t.broker); var tk := TriggerKey(t.name);
      && bk in r.0.nodes && tk in r.0.nodes && r.0.nodes[tk] == r.1
      && r.0.nodes.Keys == g.nodes.Keys + {bk, tk}
      && (forall k :: k in g.nodes && k != tk ==> r.0.nodes[k] == g.nodes[k])
      && (bk in g.nodes ==> r.0.nodes[bk] == g.nodes[bk] && r.0.drawn == g.drawn + [r.1] && r.0.next == g.next + 1)
      && (bk !in g.nodes ==> r.0.nodes[bk] == Node(g.next, "UnknownBroker " + t.broker, None, TopLevel))
      && (bk !in g.nodes ==> r.0.drawn == g.drawn + [r.0.nodes[bk], r.1] && r.0.next == g.next + 2)
    ensures var bk := BrokerKey(t.broker);
      && r.1.name == "Trigger " + t.name && r.1.labelAttr == TriggerLabel(t) && r.1.id >= g.next
      && r.1.parent == (if bk in g.subgraphs then InCluster(g.subgraphs[bk].id) else TopLevel)
    ensures r.0.subgraphs == g.subgraphs && r.0.dnsToKey == g.dnsToKey
    ensures r.0.clusters == g.clusters && r.0.edges == g.edges
  {
    BrokerTriggerDisjoint(t.broker, t.name);
    var (g1, _) := Upsert(g, BrokerKey(t.broker), "UnknownBroker " + t.broker);
    PlaceTrigger(g1, t)
  }

  /** The end of `AddTrigger`: the subscriber node is looked up or created under its key, then joined to `tn`. */
  function LinkSubscriber(g: Graph, tn: Node, sub: Subscriber): (r: Graph)
    ensures var sk := SubscriberKey(sub);
      && sk in r.nodes
      && (sk in g.nodes ==> r.nodes == g.nodes && r.drawn == g.drawn && r.next == g.next)
      && (sk !in g.nodes ==> r.nodes == g.nodes[sk := r.nodes[sk]] && r.drawn == g.drawn + [r.nodes[sk]] && r.next == g.next + 1)
      && (sk !in g.nodes ==> r.nodes[sk] == Node(g.next, "Subscriber " + SubscriberName(sub), None, TopLevel))
    ensures r.edges == g.edges + [Edge(tn, r.nodes[SubscriberKey(sub)], None)]
    ensures r.subgraphs == g.subgraphs && r.dnsToKey == g.dnsToKey && r.clusters == g.clusters
  {
    var (g1, sn) := Upsert(g, SubscriberKey(sub), "Subscriber " + SubscriberName(sub));
    Connect(g1, tn, sn, None)
  }
}

=== FILE: graph_properties.dfy ===
/**
  Properties of the pkg/graph/graph.go builder that relate several calls or
  need the structural invariant: the invariant is preserved by every
  ingestor, unresolved sinks stay out of the node table, ingestion order
  decides cluster placement, and two worked scenarios.
*/
module GraphProperties {
  import opened Optional
  import opened Text
  import opened Keys
  import opened Addresses
  import opened Resources
  import opened GraphModel

  lemma NewValid(ns: string)
    ensures Valid(New(ns))
  {
  }

  /** Drawing a fresh node keeps the invariant, provided its cluster (if any) is drawn. */
  lemma {:induction false} DrawValid(g: Graph, name: string, labelAttr: Option<string>, parent: Parent)
    requires Valid(g)
    requires parent.InCluster? ==> parent.cluster in ClusterIds(g)
    ensures Valid(Draw(g, name, labelAttr, parent).0)
    ensures Draw(g, name, labelAttr, parent).1 in Draw(g, name, labelAttr, parent).0.drawn
  {
    var (r, n) := Draw(g, name, labelAttr, parent);
    assert ClusterIds(r) == ClusterIds(g);
    forall i, j | 0 <= i < j < |r.drawn|
      ensures r.drawn[i].id != r.drawn[j].id
    {
      assert r.drawn[i] == g.drawn[i];
      if j < |g.drawn| {
        assert r.drawn[j] == g.drawn[j];
      }
    }
    forall i | 0 <= i < |r.drawn| && r.drawn[i].parent.InCluster?
      ensures r.drawn[i].parent.cluster in ClusterIds(r)
    {
      if i < |g.drawn| {
        assert r.drawn[i] == g.drawn[i];
      }
    }
  }

  lemma RecordValid(g: Graph, key: string, n: Node)
    requires Valid(g) && n in g.drawn
    ensures Valid(Record(g, key, n))
  {
    assert ClusterIds(Record(g, key, n)) == ClusterIds(g);
  }

  lemma {:induction false} ConnectValid(g: Graph, from: Node, to: Node, labelAttr: Option<string>)
    requires Valid(g) && from in g.drawn && to in g.drawn
    ensures Valid(Connect(g, from, to, labelAttr))
  {
    var r := Connect(g, from, to, labelAttr);
    assert ClusterIds(r) == ClusterIds(g);
    forall i | 0 <= i < |r.edges|
      ensures r.edges[i].from in r.drawn && r.edges[i].to in r.drawn
    {
      if i < |g.edges| {
        assert r.edges[i] == g.edges[i];
      }
    }
  }

  lemma {:induction false} UpsertValid(g: Graph, key: string, name: string)
    requires Valid(g)
    ensures Valid(Upsert(g, key, name).0)
    ensures Upsert(g, key, name).1 in Upsert(g, key, name).0.drawn
    ensures g.drawn <= Upsert(g, key, name).0.drawn
  {
    if key !in g.nodes {
      var (g1, n) := Draw(g, name, None, TopLevel);
      DrawValid(g, name, None, TopLevel);
      RecordValid(g1, key, n);
    }
  }

  lemma {:induction false} AddBrokerValid(g: Graph, b: Broker)
    requires Valid(g)
    ensures Valid(AddBroker(g, b))
  {
    var r := AddBroker(g, b);
    var k := BrokerKey(b.name);
    var n := r.nodes[k];
    var c := r.subgraphs[k];
    assert c.id in ClusterIds(r);
    assert ClusterIds(g) <= ClusterIds(r);
    forall i, j | 0 <= i < j < |r.drawn|
      ensures r.drawn[i].id != r.drawn[j].id
    {
      assert r.drawn[i] == g.drawn[i];
      if j < |g.drawn| {
        assert r.drawn[j] == g.drawn[j];
      }
    }
    forall i | 0 <= i < |r.drawn| && r.drawn[i].parent.InCluster?
      ensures r.drawn[i].parent.cluster in ClusterIds(r)
    {
      if i < |g.drawn| {
        assert r.drawn[i] == g.drawn[i];
      }
    }
  }

  lemma {:induction false} AddSourceValid(g: Graph, s: Source)
    requires Valid(g)
    ensures Valid(AddSource(g, s))
  {
    var (g0, sn) := Draw(g, "Source " + s.name + "\nKind: " + s.kind + "\n" + s.apiVersion, None, TopLevel);
    DrawValid(g, "Source " + s.name + "\nKind: " + s.kind + "\n" + s.apiVersion, None, TopLevel);
    var g1 := Record(g0, GvkKey(s.gvk, s.name), sn);
    RecordValid(g0, GvkKey(s.gvk, s.name), sn);
    var sink := SinkDns(s.sinkUri);
    if sink != "" {
      if Resolves(g1, sink) {
        ConnectValid(g1, sn, g1.nodes[g1.dnsToKey[sink]], None);
      } else {
        var (g2, un) := Draw(g1, "UnknownSink " + sink, None, TopLevel);
        DrawValid(g1, "UnknownSink " + sink, None, TopLevel);
        assert sn in g2.drawn;
        ConnectValid(g2, sn, un, None);
      }
    }
  }

  lemma {:induction false} AddTriggerValid(g: Graph, t: Trigger)
    requires Valid(g)
    ensures Valid(AddTrigger(g, t))
  {
    var bk := BrokerKey(t.broker);
    var (g1, _) := Upsert(g, bk, "UnknownBroker " + t.broker);
    UpsertValid(g, bk, "UnknownBroker " + t.broker);
    var parent := if bk in g1.subgraphs then InCluster(g1.subgraphs[bk].id) else TopLevel;
    if bk in g1.subgraphs {
      assert g1.subgraphs[bk] in g1.clusters;
    }
    var (g2a, tn) := Draw(g1, "Trigger " + t.name, TriggerLabel(t), parent);
    DrawValid(g1, "Trigger " + t.name, TriggerLabel(t), parent);
    var g2 := Record(g2a, TriggerKey(t.name), tn);
    RecordValid(g2a, TriggerKey(t.name), tn);
    match t.subscriber
    case None =>
    case Some(sub) =>
      var (g3, sn) := Upsert(g2, SubscriberKey(sub), "Subscriber " + SubscriberName(sub));
      UpsertValid(g2, SubscriberKey(sub), "Subscriber " + SubscriberName(sub));
      assert tn in g3.drawn;
      ConnectValid(g3, tn, sn, None);
  }

  /** Every ingestor keeps the structural invariant, so edges only ever join drawn nodes. */
  lemma IngestorsKeepValid(g: Graph, b: Broker, s: Source, t: Trigger)
    requires Valid(g)
    ensures Valid(AddBroker(g, b)) && Valid(AddSource(g, s)) && Valid(AddTrigger(g, t))
  {
    AddBrokerValid(g, b);
    AddSourceValid(g, s);
    AddTriggerValid(g, t);
  }

  /** Looking up or inserting twice under one key yields the same node and no further change. */
  lemma UpsertIdempotent(g: Graph, key: string, name: string, name': string)
    ensures var (g1, n1) := Upsert(g, key, name);
      Upsert(g1, key, name') == (g1, n1)
  {
  }

  /**
    The `UnknownSink` node of an unresolved sink is drawn and joined to the
    source, but no key of the node table names it.
  */
  lemma {:induction false} UnknownSinkNotRecorded(g: Graph, s: Source)
    requires Valid(g)
    requires s.sinkUri.Some? && !Resolves(AddSource(g, s), SinkDns(s.sinkUri))
    ensures var r := AddSource(g, s);
      && r.edges[|g.edges|].to.name == "UnknownSink " + SinkDns(s.sinkUri)
      && r.edges[|g.edges|].to !in r.nodes.Values
  {
    var r := AddSource(g, s);
    var un := r.edges[|g.edges|].to;
    forall k | k in r.nodes
      ensures r.nodes[k] != un
    {
      if k != GvkKey(s.gvk, s.name) {
        assert g.nodes[k] in g.drawn;
      }
    }
  }

  /**
    A source whose sink URI is the ingress address of a broker ingested
    before it draws its edge to that broker's ingress node: matching is by
    the normalised address string alone.
  */
  lemma {:induction false} SourceReachesBroker(g: Graph, b: Broker, s: Source)
    requires s.sinkUri == Some("http://" + b.hostname) || s.sinkUri == Some(BrokerDns(b.hostname))
    requires GvkKey(s.gvk, s.name) != BrokerKey(b.name)
    ensures var g1 := AddBroker(g, b); var r := AddSource(g1, s);
      && |r.edges| == |g.edges| + 1
      && r.edges[|g.edges|].from == r.nodes[GvkKey(s.gvk, s.name)]
      && r.edges[|g.edges|].to == g1.nodes[BrokerKey(b.name)]
  {
    SinkOfBrokerAddress(b.hostname);
    var g1 := AddBroker(g, b);
    var r := AddSource(g1, s);
    assert Resolves(r, SinkDns(s.sinkUri));
  }

  /**
    Brokers first: a trigger ingested after its broker (with any sources in
    between) lands in that broker's cluster and keeps the ingress node as the
    broker entry.
  */
  lemma {:induction false} TriggerAfterBroker(g: Graph, b: Broker, sources: seq<Source>, t: Trigger)
    requires t.broker == b.name
    ensures var g1 := AddBroker(g, b); var g2 := AddSources(g1, sources); var r := AddTrigger(g2, t);
      && r.nodes[TriggerKey(t.name)].parent == InCluster(g1.subgraphs[BrokerKey(b.name)].id)
      && r.subgraphs == g1.subgraphs
  {
    var g1 := AddBroker(g, b);
    AddSourcesKeepClusters(g1, sources);
  }

  /** Ingests sources in listing order. */
  function AddSources(g: Graph, sources: seq<Source>): Graph
    decreases |sources|
  {
    if |sources| == 0 then g else AddSources(AddSource(g, sources[0]), sources[1..])
  }

  lemma {:induction false} AddSourcesKeepClusters(g: Graph, sources: seq<Source>)
    ensures AddSources(g, sources).subgraphs == g.subgraphs
    ensures AddSources(g, sources).dnsToKey == g.dnsToKey
    decreases |sources|
  {
    if |sources| > 0 {
      AddSourcesKeepClusters(AddSource(g, sources[0]), sources[1..]);
    }
  }

  /**
    Triggers first: when a trigger is ingested before its broker, the later
    broker replaces the `UnknownBroker` entry in the node table instead of
    updating it, the placeholder stays drawn at top level, and the trigger
    stays outside the broker's cluster.
  */
  lemma {:induction false} BrokerAfterTrigger(g: Graph, t: Trigger, b: Broker)
    requires t.broker == b.name && BrokerKey(b.name) !in g.nodes
    ensures var g1 := AddTrigger(g, t); var r := AddBroker(g1, b); var bk := BrokerKey(b.name);
      && g1.nodes[bk].name == "UnknownBroker " + t.broker
      && g1.nodes[bk] in r.drawn && g1.nodes[bk].parent == TopLevel
      && r.nodes[bk].name == "Broker " + BrokerDns(b.hostname)
      && r.nodes[bk] != g1.nodes[bk]
      && r.nodes[TriggerKey(t.name)].parent == (if bk in g.subgraphs then InCluster(g.subgraphs[bk].id) else TopLevel)
  {
    var g1 := AddTrigger(g, t);
    var bk := BrokerKey(b.name);
    var r := AddBroker(g1, b);
    BrokerTriggerDisjoint(b.name, t.name);
    assert g1.nodes[bk] in g1.drawn by {
      assert g1.drawn[|g.drawn|] == g1.nodes[bk];
    }
    assert r.nodes[bk].id >= g1.next;
  }

  /**
    One broker `default` with ingress host `broker-ingress.svc`, then one
    trigger `t1` on it with no filter and subscriber URI
    `http://svc.default/`: one cluster owned by the broker's key, the ingress
    and trigger nodes inside it, the subscriber at top level, and one
    unlabelled trigger-to-subscriber edge.
  */
  lemma ScenarioBrokerThenTrigger()
    ensures var b := Broker("default", "broker-ingress.svc");
      var t := Trigger("t1", "default", None, Some(Subscriber(Some("http://svc.default/"), None)));
      var r := AddTrigger(AddBroker(New("default"), b), t);
      var c := r.subgraphs[BrokerKey("default")];
      && r.subgraphs.Keys == {BrokerKey("default")} && r.clusters == [c]
      && |r.drawn| == 3
      && r.drawn[0] == r.nodes[BrokerKey("default")] && r.drawn[0].parent == InCluster(c.id)
      && r.drawn[1] == r.nodes[TriggerKey("t1")] && r.drawn[1].parent == InCluster(c.id)
      && r.drawn[2] == r.nodes[UriKey("http://svc.default/")] && r.drawn[2].parent == TopLevel
      && r.edges == [Edge(r.drawn[1], r.drawn[2], None)]
  {
    var b := Broker("default", "broker-ingress.svc");
    var t := Trigger("t1", "default", None, Some(Subscriber(Some("http://svc.default/"), None)));
    var g1 := AddBroker(New("default"), b);
    BrokerTriggerDisjoint("default", "t1");
    UriKeyDisjoint("http://svc.default/", "default");
    UriKeyDisjoint("http://svc.default/", "t1");
    var r := AddTrigger(g1, t);
    assert r.drawn[0] == g1.drawn[0];
  }

  /**
    A trigger on a broker `missing` that was never ingested: exactly one
    top-level `UnknownBroker missing` node and the trigger at top level.
  */
  lemma ScenarioMissingBroker(t: Trigger)
    requires t.broker == "missing" && t.subscriber.None?
    ensures var r := AddTrigger(New("default"), t);
      && r.drawn == [r.nodes[BrokerKey("missing")], r.nodes[TriggerKey(t.name)]]
      && r.nodes[BrokerKey("missing")].name == "UnknownBroker missing"
      && r.nodes[BrokerKey("missing")].parent == TopLevel
      && r.nodes[TriggerKey(t.name)].parent == TopLevel
      && r.subgraphs == map[] && r.edges == []
  {
    BrokerTriggerDisjoint("missing", t.name);
  }

  /** The name of the cluster the last ingested broker drew. */
  function LastClusterName(g: Graph): string
    requires |g.clusters| > 0
  {
    g.clusters[|g.clusters| - 1].name
  }

  /**
    Cluster names follow the number of broker keys, not the number of
    brokers ingested: a broker whose key is already recorded does not grow
    that number, so the broker ingested next draws a cluster with the same
    `cluster_<n>` name as the one drawn for it.
  */
  lemma {:induction false} ReingestedBrokerRepeatsClusterName(g: Graph, b: Broker, c: Broker)
    requires BrokerKey(b.name) in g.subgraphs
    ensures var g1 := AddBroker(g, b); var g2 := AddBroker(g1, c);
      LastClusterName(g2) == LastClusterName(g1) == "cluster_" + Decimal(|g.subgraphs|)
  {
    var g1 := AddBroker(g, b);
    assert g1.subgraphs.Keys == g.subgraphs.Keys;
    assert |g1.subgraphs| == |g.subgraphs| by {
      assert |g1.subgraphs.Keys| == |g.subgraphs.Keys|;
    }
  }

  /** A broker with a new key grows the count, so the broker ingested next draws a differently named cluster. */
  lemma {:induction false} NewBrokerNewClusterName(g: Graph, b: Broker, c: Broker)
    requires BrokerKey(b.name) !in g.subgraphs
    ensures var g1 := AddBroker(g, b); var g2 := AddBroker(g1, c);
      LastClusterName(g2) != LastClusterName(g1)
  {
    var g1 := AddBroker(g, b);
    assert g1.subgraphs.Keys == g.subgraphs.Keys + {BrokerKey(b.name)};
    assert |g1.subgraphs| == |g.subgraphs| + 1 by {
      assert |g1.subgraphs.Keys| == |g.subgraphs.Keys| + 1;
    }
    DecimalInjective(|g.subgraphs|, |g1.subgraphs|);
    var m := Decimal(|g.subgraphs|);
    var n := Decimal(|g1.subgraphs|);
    assert LastClusterName(g1) == "cluster_" + m;
    assert LastClusterName(AddBroker(g1, c)) == "cluster_" + n;
    PrefixCancels("cluster_", m, n);
  }

  lemma PrefixCancels(x: string, m: string, n: string)
    ensures x + m == x + n ==> m == n
  {
    if x + m == x + n {
      assert m == (x + m)[|x|..];
    }
  }

  /** Brokers `a`, `a`, `b` ingested into a new graph: the second and third clusters are both `cluster_1`. */
  lemma ScenarioRepeatedClusterName(ns: string, a: Broker, b: Broker)
    ensures var g1 := AddBroker(New(ns), a); var g2 := AddBroker(g1, a); var g3 := AddBroker(g2, b);
      && LastClusterName(g1) == "cluster_0"
      && LastClusterName(g2) == "cluster_1" && LastClusterName(g3) == "cluster_1"
  {
    var g1 := AddBroker(New(ns), a);
    assert |g1.subgraphs| == 1 by {
      assert g1.subgraphs.Keys == {BrokerKey(a.name)};
    }
    ReingestedBrokerRepeatsClusterName(g1, a, b);
  }
}

=== FILE: keys.dfy ===
/**
  The identity key scheme of pkg/graph/graph.go (lines 173-199). Each helper
  in cmd/dot/graph.go (lines 117-139) matches its namesake here, and only
  pkg/graph adds `gvkKey`, so one definition serves both. Every key
  slash-joins its parts and lower-cases the whole string.
*/
module Keys {
  import opened Text

  /** Group and version under which brokers and triggers live. */
  const EventingGroup := "eventing.knative.dev"
  const EventingVersion := "v1alpha1"

  /** What every broker key and every trigger key begins with. */
  const BrokerPrefix := "eventing.knative.dev/v1alpha1/broker/"
  const TriggerPrefix := "eventing.knative.dev/v1alpha1/trigger/"

  /** A parsed group/version/kind triple (`schema.GroupVersionKind`). */
  datatype Gvk = Gvk(group: string, version: string, kind: string)

  /** `key(group, version, kind, name)`. */
  function Key(group: string, version: string, kind: string, name: string): (r: string)
    ensures NoUpper(r)
    ensures r == ToLower(group) + "/" + ToLower(version) + "/" + ToLower(kind) + "/" + ToLower(name)
  {
    LowerJoin4(group, version, kind, name)
  }

  /** `gvkKey(gvk, name)`: the source code spells the join out again rather than calling `key`. */
  function GvkKey(gvk: Gvk, name: string): (r: string)
    ensures r == Key(gvk.group, gvk.version, gvk.kind, name)
  {
    ToLower(gvk.group + "/" + gvk.version + "/" + gvk.kind + "/" + name)
  }

  /** `uriKey(uri)`. */
  function UriKey(uri: string): (r: string)
    ensures NoUpper(r)
    ensures HasPrefix(r, "uri/")
    ensures r == "uri/" + ToLower(uri)
  {
    ToLowerConcat("uri/", uri);
    ToLower("uri/" + uri)
  }

  /** `refKey(apiVersion, kind, name)`, the key of a subscriber given by object reference. */
  function RefKey(apiVersion: string, kind: string, name: string): (r: string)
    ensures NoUpper(r)
    ensures r == ToLower(apiVersion) + "/" + ToLower(kind) + "/" + ToLower(name)
  {
    ToLowerConcat(apiVersion + "/" + kind + "/", name);
    ToLowerConcat(apiVersion + "/" + kind, "/");
    ToLowerConcat(apiVersion + "/", kind);
    ToLowerConcat(apiVersion, "/");
    ToLower(apiVersion + "/" + kind + "/" + name)
  }

  /** `eventingKey(kind, name)`: a key in the eventing group and version. */
  function EventingKey(kind: string, name: string): (r: string)
    ensures r == "eventing.knative.dev/v1alpha1/" + ToLower(kind) + "/" + ToLower(name)
  {
    Key(EventingGroup, EventingVersion, kind, name)
  }

  /** `brokerKey(name)`. */
  function BrokerKey(name: string): (r: string)
    ensures NoUpper(r)
    ensures r == BrokerPrefix + ToLower(name)
  {
    EventingKey("broker", name)
  }

  /** `triggerKey(name)`. */
  function TriggerKey(name: string): (r: string)
    ensures NoUpper(r)
    ensures r == TriggerPrefix + ToLower(name)
  {
    EventingKey("trigger", name)
  }

  /** Lower-case of the slash-join of four parts, distributed over the parts. */
  function LowerJoin4(a: string, b: string, c: string, d: string): (r: string)
    ensures r == ToLower(a) + "/" + ToLower(b) + "/" + ToLower(c) + "/" + ToLower(d)
  {
    ToLowerConcat(a + "/" + b + "/" + c + "/", d);
    ToLowerConcat(a + "/" + b + "/" + c, "/");
    ToLowerConcat(a + "/" + b + "/", c);
    ToLowerConcat(a + "/" + b, "/");
    ToLowerConcat(a + "/", b);
    ToLowerConcat(a, "/");
    ToLower(a + "/" + b + "/" + c + "/" + d)
  }

  /** Resource keys ignore letter case in every part. */
  lemma KeyIgnoresCase(g: string, v: string, k: string, n: string, g': string, v': string, k': string, n': string)
    requires EqualFold(g, g') && EqualFold(v, v') && EqualFold(k, k') && EqualFold(n, n')
    ensures Key(g, v, k, n) == Key(g', v', k', n')
  {
    ToLowerEqualIff(g, g');
    ToLowerEqualIff(v, v');
    ToLowerEqualIff(k, k');
    ToLowerEqualIff(n, n');
  }

  /** In particular, upper-casing every input leaves the key unchanged. */
  lemma KeyOfUpperCase(g: string, v: string, k: string, n: string)
    ensures Key(ToUpper(g), ToUpper(v), ToUpper(k), ToUpper(n)) == Key(g, v, k, n)
  {
    UpperIsCaseVariant(g);
    UpperIsCaseVariant(v);
    UpperIsCaseVariant(k);
    UpperIsCaseVariant(n);
    KeyIgnoresCase(ToUpper(g), ToUpper(v), ToUpper(k), ToUpper(n), g, v, k, n);
  }

  /** Two broker names give the same key exactly when they differ only in letter case. */
  lemma BrokerKeyEqualIff(a: string, b: string)
    ensures BrokerKey(a) == BrokerKey(b) <==> EqualFold(a, b)
  {
    ToLowerEqualIff(a, b);
    if BrokerKey(a) == BrokerKey(b) {
      assert ToLower(a) == BrokerKey(a)[|BrokerPrefix|..];
    }
  }

  /** The same holds for trigger names. */
  lemma TriggerKeyEqualIff(a: string, b: string)
    ensures TriggerKey(a) == TriggerKey(b) <==> EqualFold(a, b)
  {
    ToLowerEqualIff(a, b);
    if TriggerKey(a) == TriggerKey(b) {
      assert ToLower(a) == TriggerKey(a)[|TriggerPrefix|..];
    }
  }

  /** And for URI endpoints. */
  lemma UriKeyEqualIff(a: string, b: string)
    ensures UriKey(a) == UriKey(b) <==> EqualFold(a, b)
  {
    ToLowerEqualIff(a, b);
    if UriKey(a) == UriKey(b) {
      assert ToLower(a) == UriKey(a)[4..];
    }
  }

  /** A broker and a trigger never share a key, whatever their names: the kind segments differ. */
  lemma BrokerTriggerDisjoint(n: string, m: string)
    ensures BrokerKey(n) != TriggerKey(m)
  {
    assert BrokerKey(n)[30] == 'b';
    assert TriggerKey(m)[30] == 't';
  }

  /** A URI key never coincides with a broker or trigger key. */
  lemma UriKeyDisjoint(u: string, n: string)
    ensures UriKey(u) != BrokerKey(n)
    ensures UriKey(u) != TriggerKey(n)
  {
    assert UriKey(u)[0] == 'u';
    assert BrokerKey(n)[0] == 'e';
    assert TriggerKey(n)[0] == 'e';
  }

  /**
    A subscriber reference that names a broker (API version
    `eventing.knative.dev/v1alpha1`, kind `Broker`) keys to that broker's
    own node.
  */
  lemma RefKeyOfBroker(n: string)
    ensures RefKey(EventingGroup + "/" + EventingVersion, "Broker", n) == BrokerKey(n)
  {
    var av := EventingGroup + "/" + EventingVersion;
    assert NoUpper(av);
    assert ToLower("Broker") == "broker";
  }
}

=== FILE: optional.dfy ===
/** The optional (nil-able) fields of the Kubernetes records. */
module Optional {

  /** A Go field that may be nil: `None` is nil, `Some(v)` refers to `v`. */
  datatype Option<+T> = None | Some(value: T) {

    /** The referenced value, or `default` when the field is nil. */
    function GetOr(default: T): (r: T)
      ensures Some? ==> r == value
      ensures None? ==> r == default
    {
      match this
      case Some(v) => v
      case None => default
    }
  }
}

=== FILE: resources.dfy ===
/**
  The handful of fields the graph builders read from the listed resources:
  brokers, sources (any duck-typed source kind) and triggers, plus the two
  pieces of trigger interpretation both builders share.
*/
module Resources {
  import opened Optional
  import opened Keys

  /** A broker: its name and the host name of its ingress address (`Status.Address.Hostname`). */
  datatype Broker = Broker(name: string, hostname: string)

  /**
    A source: its name, kind and API version as listed, the group/version/kind
    the record parses to (`GroupVersionKind()`), and `Status.SinkURI`.
  */
  datatype Source = Source(name: string, kind: string, apiVersion: string, gvk: Gvk, sinkUri: Option<string>)

  datatype SourceAndType = SourceAndType(source: string, eventType: string)

  /** `Spec.Filter`; its `SourceAndType` part is itself optional. */
  datatype Filter = Filter(sourceAndType: Option<SourceAndType>)

  /** An object reference (`Spec.Subscriber.Ref`). */
  datatype ObjectRef = ObjectRef(apiVersion: string, kind: string, name: string)

  /** `Spec.Subscriber`: a literal DNS name, an object reference, both or neither. */
  datatype Subscriber = Subscriber(dnsName: Option<string>, ref: Option<ObjectRef>)

  datatype Trigger = Trigger(name: string, broker: string, filter: Option<Filter>, subscriber: Option<Subscriber>)

  /** The trigger has filter criteria the builders render (`Filter` and `Filter.SourceAndType` both set). */
  predicate HasSourceAndType(t: Trigger) {
    t.filter.Some? && t.filter.value.sourceAndType.Some?
  }

  /** `Source:<source>\nType:<type>` for a trigger with filter criteria, nothing otherwise. */
  function FilterText(t: Trigger): (r: Option<string>)
    ensures r.Some? <==> HasSourceAndType(t)
    ensures r.Some? ==>
      r.value == "Source:" + t.filter.value.sourceAndType.value.source + "\nType:" + t.filter.value.sourceAndType.value.eventType
  {
    match t.filter
    case Some(Filter(Some(st))) => Some("Source:" + st.source + "\nType:" + st.eventType)
    case _ => None
  }

  /**
    The key a subscriber is recorded under: the URI key of its DNS name when
    one is given, else the reference key of its object reference, else the
    empty string.
  */
  function SubscriberKey(s: Subscriber): (r: string)
    ensures s.dnsName.Some? ==> r == UriKey(s.dnsName.value)
    ensures s.dnsName.None? && s.ref.Some? ==> r == RefKey(s.ref.value.apiVersion, s.ref.value.kind, s.ref.value.name)
    ensures s.dnsName.None? && s.ref.None? ==> r == ""
  {
    match (s.dnsName, s.ref)
    case (Some(dns), _) => UriKey(dns)
    case (None, Some(ref)) => RefKey(ref.apiVersion, ref.kind, ref.name)
    case (None, None) => ""
  }
}

=== FILE: text.dfy ===
/**
  String helpers used by the key scheme and the address normalisation:
  ASCII case mapping (`strings.ToLower` restricted to ASCII), prefix and
  suffix tests (`strings.HasSuffix`) and the decimal rendering that
  `fmt.Sprintf("%d", n)` performs.
*/
module Text {

  predicate IsUpper(c: char) {
    'A' <= c <= 'Z'
  }

  predicate IsLower(c: char) {
    'a' <= c <= 'z'
  }

  /** ASCII lower-casing of one character; everything else is left alone. */
  function LowerChar(c: char): (r: char)
    ensures !IsUpper(r)
    ensures !IsUpper(c) ==> r == c
    ensures IsUpper(c) ==> IsLower(r)
  {
    if IsUpper(c) then (c as int + 32) as char else c
  }

  /** ASCII upper-casing of one character; everything else is left alone. */
  function UpperChar(c: char): (r: char)
    ensures !IsLower(r)
    ensures !IsLower(c) ==> r == c
    ensures IsLower(c) ==> IsUpper(r)
  {
    if IsLower(c) then (c as int - 32) as char else c
  }

  /** No character of `s` is an upper-case letter. */
  predicate NoUpper(s: string) {
    forall i :: 0 <= i < |s| ==> !IsUpper(s[i])
  }

  function ToLower(s: string): (r: string)
    ensures |r| == |s|
    ensures NoUpper(r)
    ensures NoUpper(s) ==> r == s
  {
    seq(|s|, i requires 0 <= i < |s| => LowerChar(s[i]))
  }

  function ToUpper(s: string): (r: string)
    ensures |r| == |s|
    ensures forall i :: 0 <= i < |r| ==> !IsLower(r[i])
  {
    seq(|s|, i requires 0 <= i < |s| => UpperChar(s[i]))
  }

  /**
    Two characters are the same letter up to case: equal, or an ASCII
    upper-case letter and its lower-case partner in either order.
  */
  predicate SameIgnoringCase(c: char, d: char) {
    || c == d
    || (IsUpper(c) && d as int == c as int + 32)
    || (IsUpper(d) && c as int == d as int + 32)
  }

  /** Two strings spell the same text up to the case of their ASCII letters. */
  predicate EqualFold(a: string, b: string) {
    && |a| == |b|
    && forall i :: 0 <= i < |a| ==> SameIgnoringCase(a[i], b[i])
  }

  lemma LowerCharEqualIff(c: char, d: char)
    ensures LowerChar(c) == LowerChar(d) <==> SameIgnoringCase(c, d)
  {
  }

  /** Lower-casing identifies exactly the strings that differ only in letter case. */
  lemma {:induction false} ToLowerEqualIff(a: string, b: string)
    ensures ToLower(a) == ToLower(b) <==> EqualFold(a, b)
  {
    if ToLower(a) == ToLower(b) {
      forall i | 0 <= i < |a|
        ensures SameIgnoringCase(a[i], b[i])
      {
        assert ToLower(a)[i] == ToLower(b)[i];
        LowerCharEqualIff(a[i], b[i]);
      }
    }
    if EqualFold(a, b) {
      forall i | 0 <= i < |a|
        ensures ToLower(a)[i] == ToLower(b)[i]
      {
        LowerCharEqualIff(a[i], b[i]);
      }
    }
  }

  lemma UpperIsCaseVariant(s: string)
    ensures EqualFold(s, ToUpper(s))
    ensures EqualFold(s, ToLower(s))
  {
  }

  lemma ToLowerConcat(a: string, b: string)
    ensures ToLower(a + b) == ToLower(a) + ToLower(b)
  {
  }

  /** `strings.HasSuffix(s, suffix)`. */
  predicate HasSuffix(s: string, suffix: string) {
    |suffix| <= |s| && s[|s| - |suffix|..] == suffix
  }

  /** `strings.HasPrefix(s, prefix)`. */
  predicate HasPrefix(s: string, prefix: string) {
    |prefix| <= |s| && s[..|prefix|] == prefix
  }

  predicate IsDigit(c: char) {
    '0' <= c <= '9'
  }

  predicate AllDigits(s: string) {
    forall i :: 0 <= i < |s| ==> IsDigit(s[i])
  }

  function DigitChar(d: nat): (c: char)
    requires d < 10
    ensures IsDigit(c)
    ensures c as int - '0' as int == d
  {
    ('0' as int + d) as char
  }

  /** Decimal rendering of a natural number, as `%d` prints it. */
  function Decimal(n: nat): (r: string)
    ensures 1 <= |r|
    ensures AllDigits(r)
    ensures |r| > 1 ==> r[0] != '0'
    decreases n
  {
    if n < 10 then [DigitChar(n)] else Decimal(n / 10) + [DigitChar(n % 10)]
  }

  /** Reads a string of decimal digits back into the number it denotes. */
  function ParseDecimal(s: string): nat
    requires AllDigits(s)
  {
    if |s| == 0 then 0
    else 10 * ParseDecimal(s[..|s| - 1]) + (s[|s| - 1] as int - '0' as int)
  }

  lemma {:induction false} DecimalRoundTrip(n: nat)
    ensures ParseDecimal(Decimal(n)) == n
    decreases n
  {
    if n >= 10 {
      var d := Decimal(n / 10);
      var r := Decimal(n);
      assert r == d + [DigitChar(n % 10)];
      assert r[..|r| - 1] == d;
      DecimalRoundTrip(n / 10);
    }
  }

  /** Different numbers print differently: `cluster_%d` names differ exactly when the counts they print differ. */
  lemma DecimalInjective(m: nat, n: nat)
    ensures Decimal(m) == Decimal(n) <==> m == n
  {
    if Decimal(m) == Decimal(n) {
      DecimalRoundTrip(m);
      DecimalRoundTrip(n);
    }
  }
}
